=== FILE: README.md ===
# NekoImageGallery search and indexing core, in Dafny

This project models the decision logic of NekoImageGallery, a self-hosted image
gallery that searches images by natural-language prompts (CLIP vision vectors)
and by the text inside them (OCR plus BERT vectors). It covers four services:

- **Local search backend** (`LocalSearch`, `local_search_service.py`): the
  payload filter predicate, the basis-to-vector-name map, the forwarding of
  single-vector queries, the reduction of composition queries to their first
  positive vector, and the extension-matching directory scan.
- **Search controller** (`SearchController` and `Ranking`, `search.py`):
  - the OCR basis gate and the exact-OCR rule of text search;
  - the composition query and its inflated `top_k` for combined search;
  - cross-modal re-scoring `(1 + cosine) * score`, the stable descending
    re-sort, and truncation to the requested count;
  - the storage post-processing that presigns remote urls.
- **Indexer** (`Indexer`, `index_service.py`):
  - content-derived ids (`uuid5(NAMESPACE_URL, md5(bytes))`);
  - item preparation: dimensions, aspect ratio, vision vector, tags, and
    OCR with its empty-text rule;
  - the duplicate gate of single and batch indexing;
  - the bulk scan, which works in batches of ten, skips files that fail,
    and issues one insert per non-empty batch.
- **Tagger** (`Tagger`, `wd14_tagger_service.py`): model loading and its
  degradation to "no tags", and the strict threshold filter.

Every collaborator the code calls into is a function-valued parameter or
field. This covers the CLIP, BERT, OCR and WD14 models, cosine, md5, uuid5,
file opening and reading, presigning, and the vector database's query.
Python exceptions that callers can observe become `Failure` or `None` values.

The vector store is the set of stored ids plus the log of `insert_items`
calls, so a lemma can state exactly which calls a run makes.

Behaviours of the code worth knowing:

- The tag clause of the local filter lets untagged items through
  (`UntaggedPassesTagClause`).
- The local filter never reads `ocr_text`, so the exact-OCR rule has no effect
  there (`OcrTextIgnored`).
- The bulk indexer's glob is case-sensitive, while the local scan lower-cases
  names (`GlobIsCaseSensitive`).
- The tagger's failure path gives `tags = []`, not `None`.
- `query_search` forwards straight to the vector database. Neither the filter
  predicate (`PassesFilters`) nor the file list of the directory scan is used
  by any query; both are modelled as the standalone operations they are.

## Model

| member | source | states |
|---|---|---|
| LocalSearch.NumOr | app/Services/local_search_service.py:98 | `payload.get(key, default)` compared with a number: the stored number or the default; a TypeError exactly when the stored value is a string |
| LocalSearch.RatioCheck | app/Services/local_search_service.py:106-109 | the ratio clause raises only for a string `aspect_ratio`, or for a missing `max_ratio` when the ratio is not below `min_ratio` |
| LocalSearch.PassesFilters | app/Services/local_search_service.py:87-111 | the clauses are tried in order: a rejecting tag clause, a numeric width below `min_width`, or a numeric height below `min_height` past a width clause that did not raise gives False before any later clause is read; the predicate raises only when a set clause's payload value is a string, or `min_ratio` is set without `max_ratio` |
| LocalSearch.FiltersAreConjunction | app/Services/local_search_service.py:87-111 | on numeric payloads with a usable ratio range, an item passes iff none of the four clauses (tags, width, height, ratio) rejects it, each clause active only when its parameter is truthy |
| LocalSearch.UnsetFilterPassesAll | app/Services/local_search_service.py:92-111 | with every filter parameter falsy, every item passes, whatever its payload |
| LocalSearch.OcrTextIgnored | app/Services/local_search_service.py:87-111 | the predicate's verdict does not depend on the filter's `ocr_text` |
| LocalSearch.UntaggedPassesTagClause | app/Services/local_search_service.py:92-95 | an item with no tags is not rejected by the tag clause, whatever the query text |
| LocalSearch.FilterExamples | app/Services/local_search_service.py:92-99 | width 50 fails `min_width=100`; tags `cat`, `outdoor` match the query `CAT` case-insensitively |
| LocalSearch.VectorNameRoundTrip | app/Services/local_search_service.py:113-122 | vision maps to `image_vector` and OCR to `text_contain_vector`; the map is injective and inverted by `BasisForVectorName` |
| LocalSearch.VectorNameForBasis | app/Services/local_search_service.py:113-122 | every basis is mapped to one of the two stored vector names, and the name maps back to that basis |
| LocalSearch.QuerySearch | app/Services/local_search_service.py:55-70 | disabled local search returns no results; otherwise the call is forwarded to the database unchanged |
| LocalSearch.QuerySimilar | app/Services/local_search_service.py:72-85 | no or empty positives give no results; otherwise it is a single-vector query on the first positive with the same name, top_k, skip and filter |
| LocalSearch.QuerySimilarIgnoresComposition | app/Services/local_search_service.py:83-85 | two composition calls that agree on the first positive and on the query parameters return the same results: negatives, the other positives, the mode and `with_vectors` have no effect |
| LocalSearch.ScanDirectory | app/Services/local_search_service.py:38-53 | the scan returns nothing when local search is disabled or the directory is missing, and otherwise the walked files with an image extension, in walk order (`KeptPaths`) |
| LocalSearch.KeptPathsMembers | app/Services/local_search_service.py:48-51 | a path is kept iff some walked file with a lower-cased name ending in a configured extension joins to it; there are never more paths than walked files |
| Text.LastSegment | app/Controllers/search.py:44 | `split(sep)[-1]`: a separator-free suffix of the input that follows the last separator, or the whole input when there is none |
| Tagger.LoadModel | app/Services/wd14_tagger_service.py:15-31 | the model counts as loaded iff the tagger is enabled and construction succeeds, and a tagger is held exactly when it is loaded |
| Tagger.TagsAbove | app/Services/wd14_tagger_service.py:46-50 | a tag is kept iff some entry has that name and a confidence strictly above the threshold |
| Tagger.TagsAboveIsSubsequence | app/Services/wd14_tagger_service.py:46-50 | the kept tags keep the interrogator's order: they form a subsequence of its tag names |
| Tagger.GenerateTags | app/Services/wd14_tagger_service.py:33-55 | no tags when the model is not loaded or interrogation raises; otherwise exactly the tags above the configured threshold |
| Tagger.UnloadedTaggerYieldsNoTags | app/Services/wd14_tagger_service.py:15-35 | when the tagger is disabled or its construction fails, every image gets the empty tag list |
| Ranking.SortByScoreDesc | app/Controllers/search.py:227 | the re-sort yields a permutation of its input in non-increasing score order |
| Ranking.SortIsStable | app/Controllers/search.py:227 | for every score, the results with that score keep their relative input order |
| Ranking.StableOrderIsUnique | app/Controllers/search.py:227 | two descending orders that agree with each other score by score are equal |
| Ranking.SortIsTheStableSort | app/Controllers/search.py:227 | any descending rearrangement that keeps equal-score results in input order is the sort's output: stability pins the result down |
| SearchController.CheckBasis | app/Controllers/search.py:26-32 | the OCR basis is refused with status 400 iff OCR search is disabled; any other basis is accepted unchanged |
| SearchController.TextSearchCall | app/Controllers/search.py:54-76 | text search encodes with CLIP under vision and BERT under OCR, queries the basis's vector name with the paging's count and skip, and sets `ocr_text` to the prompt exactly when the basis is OCR and `exact` is set; other filter fields are passed as given |
| SearchController.ExactIgnoredForVision | app/Controllers/search.py:61-63 | under the vision basis the `exact` flag has no effect |
| SearchController.TextSearch | app/Controllers/search.py:54-79 | the endpoint fails iff the basis is refused, and otherwise returns the post-processed results of exactly that query |
| SearchController.QueryTopK | app/Controllers/search.py:190 | combined search fetches `min(max(30, 3*count), 100)` results: between 30 and 100, at least `count` when `count <= 100`, three times `count` in the middle range; plain composition keeps `count` |
| SearchController.EncodeAll | app/Controllers/search.py:182-186 | each criterion is encoded, in order, one vector per criterion |
| SearchController.PlanCompositionQuery | app/Controllers/search.py:175-200 | the composition query carries the basis encoder's vectors for the criteria and negative criteria, the basis's vector name, the mode and filter as given, `with_vectors` iff combined, the computed `top_k` and the paging's skip |
| SearchController.LocalCompositionUsesFirstCriterion | app/Services/local_search_service.py:83-85 | against the enabled local backend, a composition query is a single query on the first criterion's vector, and finds nothing without criteria |
| SearchController.ModalityPairing | app/Controllers/search.py:207-222 | re-scoring pairs the item's vector of the other basis with the extra prompt encoded as a query of that basis: OCR uses `image_vector` with CLIP text, vision uses `text_contain_vector` with BERT |
| SearchController.Rescore | app/Controllers/search.py:215-225 | every result keeps its image; its score becomes `(1 + cosine) * score` when it carries the other-modality vector and is unchanged otherwise |
| SearchController.RescoreBounds | app/Controllers/search.py:223-225 | with cosines in [-1, 1], a non-negative score ends between 0 and twice itself |
| SearchController.RescoreMonotone | app/Controllers/search.py:223-225 | of two results with the same non-negative base score that both carry the other-modality vector, the one whose vector has the higher cosine with the extra prompt gets a new score no lower than the other's |
| SearchController.RescoreExample | app/Controllers/search.py:225 | base score 0.8 with cosine 0.5 becomes 1.2 |
| SearchController.Truncate | app/Controllers/search.py:152 | truncation keeps the first `min(len, count)` results |
| SearchController.CombinedRank | app/Controllers/search.py:150-152 | combined ranking returns a descending prefix of the stably sorted re-scored results, of length `min(fetched, count)` |
| SearchController.RemoteExtensionFromUrl | app/Controllers/search.py:44-45 | without a format, the remote extension is the url's final dot-free segment, the one after its last dot |
| SearchController.Postprocess | app/Controllers/search.py:35-51 | with storage off the results are untouched; otherwise scores, order and all fields but the two urls are kept, local items are untouched, and a remote item's url is the presigned `{id}.{extension}` |
| SearchController.PostprocessKeepsOrder | app/Controllers/search.py:41-51 | post-processing changes only urls, so a list in non-increasing score order stays in that order |
| SearchController.CombinedSearch | app/Controllers/search.py:139-155 | combined search fails with 400 iff OCR search is disabled; otherwise it returns the post-processed, re-ranked and truncated results of the planned composition query: at most `count` of them, in non-increasing score order |
| SearchController.CombinedSearchAsWritten | app/Controllers/search.py:139-155 | the endpoint as written refuses with 400 when OCR search is off, and otherwise fails with a NameError whenever its module globals do not bind `services` |
| SearchController.LookupServices | app/Controllers/search.py:182 | evaluating `services.…` succeeds iff the name is bound to a service provider, and raises a NameError when it is not bound at all |
| SearchController.ProcessQueryAsWritten | app/Controllers/search.py:175-200 | the composition helper as written raises a NameError when `services` is not a module global, succeeds iff it is bound to a service provider, and then returns that provider's backend's answer to the planned composition query |
| SearchController.ServicesUnboundInSearchModule | app/Controllers/search.py:1-24 | `services` is none of the names the controller module binds: its imports and its top-level definitions |
| SearchController.BoundServicesMatchCorrected | app/Controllers/search.py:139-227 | with `services` bound to a provider, combined search as written gives exactly the corrected result for that provider's encoders and backend, refusals included |
| SearchController.CombinedSearchAsWrittenAlwaysFails | app/Controllers/search.py:1-24 | against the controller module's own globals and with OCR enabled, combined search as written fails on the unbound name `services` wherever the corrected version succeeds |
| Indexer.IdsOf | app/Services/index_service.py:119 | the id set of a list is exactly the ids of its items |
| Indexer.ValidateIds | app/Services/index_service.py:120 | the validation returns exactly those given ids that are stored |
| Indexer.IsPointDuplicate | app/Services/index_service.py:118-121 | a list counts as duplicate iff some item's id is already stored |
| Indexer.GenerateImageId | app/Services/index_service.py:29-33 | an id exists iff the file can be read |
| Indexer.IdDependsOnlyOnContent | app/Services/index_service.py:29-33 | the id is `uuid5(NAMESPACE_URL, md5hex(bytes))`, so two files with the same bytes get the same id whatever their paths |
| Indexer.ApplyOcr | app/Services/index_service.py:51-60 | OCR text is stored iff OCR returns a non-empty text whose BERT encoding succeeds, and then the text vector is that encoding; otherwise `ocr_text` is `None` and the text vector is left as it was |
| Indexer.PrepareImage | app/Services/index_service.py:35-60 | preparation fails iff the height is zero or the vision encoder raises, and never changes an item's id, url, format, payload or comments |
| Indexer.PrepareImageFields | app/Services/index_service.py:35-60 | a prepared item has the image's dimensions, `aspect_ratio * height == width`, the vision vector and tags iff the tagger is enabled; when OCR runs it holds OCR text iff OCR yields a non-empty text that BERT encodes, and otherwise the OCR fields are untouched |
| Indexer.TextVectorIffOcrText | app/Services/index_service.py:51-60 | after OCR, an item that had no text vector has one iff it has OCR text |
| Indexer.IndexImage | app/Services/index_service.py:123-133 | the single index raises a duplicate error carrying the id iff the check is on and the id is stored; past that gate it fails iff preparation raises, and succeeds iff it does not, inserting exactly the prepared item in one call |
| Indexer.SecondIndexIsRejected | app/Services/index_service.py:125-126 | after a successful index, indexing content with the same id again without skipping the check is refused |
| Indexer.PrepareZip | app/Services/index_service.py:139-141 | a successful batch preparation returns one item per given item |
| Indexer.PrepareZipItems | app/Services/index_service.py:139-140 | `zip` prepares the paired items, passes items beyond the shorter list through unchanged, and fails iff some paired item fails |
| Indexer.PrepareZipKeepsIds | app/Services/index_service.py:139-141 | batch preparation keeps each item's identity, so the inserted ids are the given ids |
| Indexer.IndexImageBatch | app/Services/index_service.py:135-141 | the batch raises a duplicate error iff overwriting is off and any item's id is stored; past that gate it fails iff preparing some paired item raises, and succeeds iff none does, making one insert of the whole prepared list |
| Indexer.GlobFor | app/Services/index_service.py:75 | one extension's glob finds exactly the listed files whose name ends with it |
| Indexer.GlobFiles | app/Services/index_service.py:73-75 | the collected files are exactly those matching some extension's glob |
| Indexer.GlobIsCaseSensitive | app/Services/index_service.py:74-75 | `IMG.JPG` is kept by the local scan for `.jpg` but not by the indexer's glob |
| Indexer.NewLocalItem | app/Services/index_service.py:89-100 | the fresh item has the given id, is local, has url `file://` plus the absolute path, the lower-cased format or `unknown`, the original-path comment, and exactly the payload keys filename, width, height and aspect ratio, with `aspect_ratio * height == width` |
| Indexer.BuildItem | app/Services/index_service.py:86-107 | a file yields an item iff it opens, can be read, has a non-zero height and the vision encoder accepts it; the item is the fresh local item for that file (content id, local, url `file://` plus the absolute path, lower-cased format or `unknown`, file name, numeric width, height and ratio payload entries) prepared from the opened image with OCR skipped iff OCR search is off, so it carries the image's width and height and its vision vector |
| Indexer.AllSucceed | app/Services/index_service.py:86-107 | when every file can be built, every file yields an item |
| Indexer.OneFailureSkipped | app/Services/index_service.py:105-107 | a single unreadable file among readable ones costs exactly that one item |
| Indexer.CorruptFileSkipped | app/Services/index_service.py:86-107 | among otherwise indexable files, one file that cannot be opened costs the scan exactly that file's item |
| Indexer.Chunks | app/Services/index_service.py:79-81 | the batches are `files[i:i+10]` for `i` in steps of ten: there are none iff there are no files, each holds one to ten files, and every batch but the last holds exactly ten |
| Indexer.ChunksCover | app/Services/index_service.py:79-81 | the batches, concatenated, are the file list in order |
| Indexer.SurvivorsBound | app/Services/index_service.py:86-107 | a batch never yields more items than it has files |
| Indexer.BatchCallSizes | app/Services/index_service.py:109-110 | each insert call holds between one and ten items: empty batches make no call |
| Indexer.BatchCallsFlatten | app/Services/index_service.py:79-110 | the insert calls, concatenated, are the items built from the files in order |
| Indexer.InsertAllLogsCalls | app/Services/index_service.py:110 | inserting the calls in turn appends them, in order, to the store's call log |
| Indexer.BuildBatch | app/Services/index_service.py:86-107 | the inner loop yields the items of the batch's files that succeed, in file order |
| Indexer.BatchStep | app/Services/index_service.py:80-110 | one iteration of the batch loop advances the store as the remaining batches prescribe |
| Indexer.IndexBatches | app/Services/index_service.py:79-114 | the batch loop makes exactly the insert calls of the non-empty batches, in order |
| Indexer.InitializeIndex | app/Services/index_service.py:62-116 | the store is untouched when local search is disabled or the directory is missing, and otherwise receives the batch calls for the globbed files |
| Indexer.InitializeIndexEffect | app/Services/index_service.py:62-116 | initialisation appends insert calls of one to ten items each; there are none when disabled or missing; together they insert exactly the buildable globbed files, in order |

## Left out

- The HTTP layer is not modelled: FastAPI routing, dependency injection, response messages and query ids (`uuid4`).
- The image search, similar-to-id, random pick and advanced search endpoints are not modelled. Advanced search shares the composition query modelled here.
- Asynchrony and the background thread pool are not modelled. Every call is sequential, and `background=True` prepares the same way.
- The model bodies are not modelled: CLIP, BERT, OCR, the WD14 interrogator, cosine, md5, uuid5, image decoding, and the vector database's own search. They are parameters. RGB conversion only sets the mode.
- Logging, `index_date` (`datetime.now()`) and the "Indexed batch i/n" counter are not modelled. None of them affects results.
- Encoder exceptions during a search request are not modelled. The search-side encoders are total functions.
- Exceptions from `insert_items` are not modelled. The outer `try` around a batch therefore never fires in the model.
- The error classes are not modelled. The duplicate error is only a tag carrying the id.
- Text.Lower: only ASCII letters are case-folded. Python's full Unicode `lower()` is not modelled.
- SearchController.Paging: the count is a natural number. Python's behaviour for a negative slice bound is not modelled.
- Directory traversal order is a given listing. The `os.walk` order and the order of pathlib's recursive glob are not modelled.
- Indexer.GlobFor: the pattern `**/*{ext}` is a suffix test on file names. Directories whose names match are not modelled.
- Tagger.TagsAbove: the interrogator's tag dictionary is a list of pairs. Key uniqueness is not enforced.
- LocalSearch.VectorNameForBasis: the `ValueError` branch for an unknown basis is not modelled, because the basis type has only two values.
- Payload values and scores are `real`. Floating-point rounding and NaN are not modelled.
- The provider, configuration, image-management controller, web application and GUI files are not modelled. They are wiring and HTTP plumbing.
- Config: the settings `local_search.enabled` and `local_search.extensions`, `model.tagger_enabled` and `model.tagger_threshold`, and `storage.method.enabled` are inputs of the model. The `Config` class in app/config.py:31-50 declares no `local_search`, `model` or `storage` field. On that file the reads at local_search_service.py:40, wd14_tagger_service.py:16, index_service.py:47 and 64 and search.py:39 would raise `AttributeError`. The model assumes the settings exist.
- SearchController.TextSearchCall and SearchController.PlanCompositionQuery name the queried vector with the local backend's `vector_name_for_basis` for every backend. With local search off the backend is `VectorDbContext` (app/Services/provider.py:23). VectorDbContext is not part of this model, so its naming is assumed to agree.

## Findings

| source | as written | input that shows it | evidently intended | confidence | as-written member | corrected member |
|---|---|---|---|---|---|---|
| app/Controllers/search.py:182 | `process_advanced_and_combined_search_query` and `calculate_and_sort_by_combined_scores` read `services.transformers_service`, but `services` is only a parameter of the endpoints and no module-level name binds it | any combined search request with OCR search enabled, e.g. criteria `["cat"]`, extra prompt `"sign"` | the endpoints pass their `ServiceProvider` to the helpers, so the encoders are reached | not executed; high (the controller module defines `get_services` but never a global `services`) | SearchController.CombinedSearchAsWritten | SearchController.CombinedSearch |

=== FILE: common.dfy ===
/** Failure-carrying wrappers shared by every module of the model. Python's
    `None` becomes `None`, and an exception a caller can observe becomes a
    `Failure` carrying what was raised. */
module Common {

  datatype Option<+T> = None | Some(value: T)

  datatype Result<+R, +E> = Success(value: R) | Failure(error: E)

  function Min(a: int, b: int): int { if a <= b then a else b }
  function Max(a: int, b: int): int { if a >= b then a else b }
}

=== FILE: domain.dfy ===
/** The records the search and indexing core passes around: the configuration
    switches it reads, images, indexed items (`MappedImage`), search results,
    filter parameters and the calls it issues to a search backend. */
module Domain {
  import opened Common

  newtype byte = x: int | 0 <= x < 256

  /** An embedding; its contents only matter to the encoders and to cosine. */
  type Vector = seq<real>

  type Id = string
  type Path = string

  /** The settings of the configuration object that the core consults. */
  datatype Config = Config(
    ocrEnabled: bool,
    taggerEnabled: bool,
    taggerThreshold: real,
    localSearchEnabled: bool,
    extensions: seq<string>,
    storageEnabled: bool)

  /** One file reported by a directory walk: the directory and the file name. */
  datatype DirEntry = DirEntry(root: Path, name: string)

  /** `os.path.join(root, name)` for a plain file name. */
  function FullPath(e: DirEntry): Path {
    if |e.root| > 0 && e.root[|e.root| - 1] == '/' then e.root + e.name else e.root + "/" + e.name
  }

  /** A decoded image as the image library hands it over. */
  datatype Image = Image(width: nat, height: nat, mode: string, format: Option<string>, pixels: seq<byte>)

  /** `convert('RGB')` when the mode differs, `copy()` otherwise. */
  function ToRgb(img: Image): (r: Image)
    ensures r.mode == "RGB" && r.width == img.width && r.height == img.height
  {
    img.(mode := "RGB")
  }

  /** The open key/value payload kept next to the typed fields; a value is a
      number (ints and floats alike) or a string. */
  datatype PayloadValue = Num(n: real) | Str(s: string)
  type Payload = map<string, PayloadValue>

  /** One indexed image. */
  datatype MappedImage = MappedImage(
    id: Id,
    url: string,
    local: bool,
    format: Option<string>,
    width: Option<int>,
    height: Option<int>,
    aspectRatio: Option<real>,
    imageVector: Option<Vector>,
    textContainVector: Option<Vector>,
    ocrText: Option<string>,
    tags: Option<seq<string>>,
    payload: Payload,
    thumbnailUrl: Option<string>,
    localThumbnail: bool,
    comments: Option<string>)

  datatype SearchResult = SearchResult(img: MappedImage, score: real)

  /** Query-time filters; every field is optional. */
  datatype FilterParams = FilterParams(
    queryText: Option<string>,
    ocrText: Option<string>,
    minWidth: Option<int>,
    minHeight: Option<int>,
    minRatio: Option<real>,
    maxRatio: Option<real>)

  const NoFilter := FilterParams(None, None, None, None, None, None)

  /** The embedding space a query is expressed in. */
  datatype Basis = Vision | Ocr

  /** Arguments of `query_search`. */
  datatype QueryCall = QueryCall(vector: Vector, vectorName: string, topK: int, skip: int,
                                 filter: Option<FilterParams>)

  /** Arguments of `query_similar`. */
  datatype SimilarCall = SimilarCall(
    vectorName: string,
    searchId: Option<string>,
    positives: Option<seq<Vector>>,
    negatives: Option<seq<Vector>>,
    mode: Option<string>,
    withVectors: bool,
    filter: Option<FilterParams>,
    topK: int,
    skip: int)

  /** The search service the controller talks to: the local backend or the
      remote vector database, chosen once at start-up. */
  datatype SearchBackend = SearchBackend(
    querySearch: QueryCall -> seq<SearchResult>,
    querySimilar: SimilarCall -> seq<SearchResult>)
}

=== FILE: indexer.dfy ===
/** The deduplicating indexer (`IndexService`): content-derived ids, item
    preparation (dimensions, vision vector, tags, OCR), the duplicate gate of
    single and batch indexing, and the batched bulk scan of the local
    directory. The vector store is an id set plus the log of `insert_items` calls. */
module Indexer {
  import opened Common
  import opened Text
  import opened Domain
  import opened Tagger
  import LocalSearch

  /** `uuid.NAMESPACE_URL` of RFC 4122, appendix C. */
  const NamespaceUrl := "6ba7b811-9dad-11d1-80b4-00c04fd430c8"

  const BatchSize := 10

  /** The foreign code the indexer calls. A `None` result stands for an exception. */
  datatype Env = Env(
    open: Path -> Option<Image>,
    readBytes: Path -> Option<seq<byte>>,
    md5Hex: seq<byte> -> string,
    uuid5: (string, string) -> string,
    absolute: Path -> string,
    imageVector: Image -> Option<Vector>,
    bertVector: string -> Option<Vector>,
    ocr: Image -> Option<string>)

  datatype IndexService = IndexService(cfg: Config, env: Env, tagger: TaggerService)

  // ---------------------------------------------------------------------------
  // The vector store.

  /** The ids already stored, and every `insert_items` call made, in order. */
  datatype Store = Store(ids: set<Id>, calls: seq<seq<MappedImage>>)

  function IdsOf(items: seq<MappedImage>): (r: set<Id>)
    ensures forall id :: id in r <==> exists i :: 0 <= i < |items| && items[i].id == id
  {
    set i | 0 <= i < |items| :: items[i].id
  }

  /** `insert_items`: the ids become known and the call is logged. */
  function InsertItems(store: Store, items: seq<MappedImage>): Store
  {
    Store(store.ids + IdsOf(items), store.calls + [items])
  }

  /** `validate_ids`: the given ids that are already stored, in the given order. */
  function ValidateIds(store: Store, ids: seq<Id>): (r: seq<Id>)
    ensures forall id :: id in r <==> id in ids && id in store.ids
  {
    if |ids| == 0 then []
    else (if ids[0] in store.ids then [ids[0]] else []) + ValidateIds(store, ids[1..])
  }

  /** `_is_point_duplicate`. */
  function IsPointDuplicate(store: Store, items: seq<MappedImage>): (dup: bool)
    ensures dup <==> exists i :: 0 <= i < |items| && items[i].id in store.ids
  {
    var ids := seq(|items|, i requires 0 <= i < |items| => items[i].id);
    var found := ValidateIds(store, ids);
    assert forall i :: 0 <= i < |items| && items[i].id in store.ids ==> ids[i] in found;
    assert |found| != 0 ==> found[0] in ids && found[0] in store.ids;
    |found| != 0
  }

  // ---------------------------------------------------------------------------
  // Ids.

  function ContentId(env: Env, content: seq<byte>): Id {
    env.uuid5(NamespaceUrl, env.md5Hex(content))
  }

  /** `_generate_image_id`: `None` when the file cannot be read. */
  function GenerateImageId(env: Env, path: Path): (r: Option<Id>)
    ensures r.Some? <==> env.readBytes(path).Some?
  {
    match env.readBytes(path)
    case None => None
    case Some(content) => Some(ContentId(env, content))
  }

  /** The id depends on the file's content only: two paths holding the same
      bytes get the same id. */
  lemma IdDependsOnlyOnContent(env: Env, p: Path, q: Path)
    requires env.readBytes(p).Some? && env.readBytes(p) == env.readBytes(q)
    ensures GenerateImageId(env, p) == GenerateImageId(env, q)
    ensures GenerateImageId(env, p) == Some(env.uuid5(NamespaceUrl, env.md5Hex(env.readBytes(p).value)))
  {
  }

  // ---------------------------------------------------------------------------
  // Preparing one item.

  datatype PrepareError = ZeroHeight | VisionEncoderFailed

  /** The fields of an item that preparation never touches. */
  predicate SameIdentity(a: MappedImage, b: MappedImage) {
    && a.id == b.id && a.url == b.url && a.local == b.local && a.format == b.format
    && a.payload == b.payload && a.thumbnailUrl == b.thumbnailUrl
    && a.localThumbnail == b.localThumbnail && a.comments == b.comments
  }

  /** The OCR step: an empty text becomes `None`, and an exception in OCR or
      in the BERT encoder leaves `ocr_text` at `None`. */
  function ApplyOcr(env: Env, rgb: Image, data: MappedImage): (r: MappedImage)
    ensures r.ocrText.None? || r.ocrText.value != ""
    ensures r.ocrText.Some? ==>
      && env.ocr(rgb) == r.ocrText
      && env.bertVector(r.ocrText.value).Some?
      && r.textContainVector == env.bertVector(r.ocrText.value)
    ensures r.ocrText.None? ==> r.textContainVector == data.textContainVector
    ensures env.ocr(rgb).None? ==> r.ocrText.None?
    ensures r.ocrText.Some? <==>
      env.ocr(rgb).Some? && env.ocr(rgb).value != "" && env.bertVector(env.ocr(rgb).value).Some?
    ensures r == data.(ocrText := r.ocrText, textContainVector := r.textContainVector)
  {
    match env.ocr(rgb)
    case None => data.(ocrText := None)
    case Some(text) =>
      if text == "" then data.(ocrText := None)
      else match env.bertVector(text)
        case None => data.(ocrText := None)
        case Some(v) => data.(ocrText := Some(text), textContainVector := Some(v))
  }

  /** Whether `_prepare_image` runs the OCR step. */
  predicate OcrRuns(cfg: Config, skipOcr: bool) { !skipOcr && cfg.ocrEnabled }

  /** `_prepare_image`; the failures are the division by a zero height and an
      exception from the vision encoder. */
  function PrepareImage(svc: IndexService, image: Image, data: MappedImage, skipOcr: bool): (r: Result<MappedImage, PrepareError>)
    ensures r.Failure? <==> image.height == 0 || svc.env.imageVector(ToRgb(image)).None?
    ensures r.Success? ==> SameIdentity(r.value, data)
  {
    if image.height == 0 then Failure(ZeroHeight)
    else
      var rgb := ToRgb(image);
      match svc.env.imageVector(rgb)
      case None => Failure(VisionEncoderFailed)
      case Some(v) =>
        var sized := data.(width := Some(image.width as int), height := Some(image.height as int),
                           aspectRatio := Some(image.width as real / image.height as real),
                           imageVector := Some(v));
        var tagged := if svc.cfg.taggerEnabled then sized.(tags := Some(GenerateTags(svc.tagger, svc.cfg, rgb))) else sized;
        Success(if OcrRuns(svc.cfg, skipOcr) then ApplyOcr(svc.env, rgb, tagged) else tagged)
  }

  /** The fields preparation fills: the dimensions and a ratio consistent
      with them, the vision vector, the tags exactly when the tagger is
      enabled, and the OCR text and text vector only when OCR runs. */
  lemma PrepareImageFields(svc: IndexService, image: Image, data: MappedImage, skipOcr: bool)
    requires PrepareImage(svc, image, data, skipOcr).Success?
    ensures var d := PrepareImage(svc, image, data, skipOcr).value;
      && d.width == Some(image.width as int) && d.height == Some(image.height as int)
      && d.aspectRatio.Some? && d.aspectRatio.value * image.height as real == image.width as real
      && d.imageVector == svc.env.imageVector(ToRgb(image)) && d.imageVector.Some?
      && (svc.cfg.taggerEnabled ==> d.tags == Some(GenerateTags(svc.tagger, svc.cfg, ToRgb(image))))
      && (!svc.cfg.taggerEnabled ==> d.tags == data.tags)
      && (!OcrRuns(svc.cfg, skipOcr) ==> d.ocrText == data.ocrText && d.textContainVector == data.textContainVector)
      && (OcrRuns(svc.cfg, skipOcr) ==>
            && (d.ocrText.None? || d.ocrText.value != "")
            && (d.ocrText.Some? ==> svc.env.ocr(ToRgb(image)) == d.ocrText
                                    && d.textContainVector.Some?
                                    && d.textContainVector == svc.env.bertVector(d.ocrText.value))
            && (d.ocrText.None? ==> d.textContainVector == data.textContainVector)
            && (svc.env.ocr(ToRgb(image)).None? ==> d.ocrText.None?)
            && (d.ocrText.Some? <==>
                  var text := svc.env.ocr(ToRgb(image));
                  text.Some? && text.value != "" && svc.env.bertVector(text.value).Some?))
  {
  }

  /** For an item that had no text vector before, a prepared item that went
      through OCR has a text vector exactly when it has OCR text. */
  lemma TextVectorIffOcrText(svc: IndexService, image: Image, data: MappedImage, skipOcr: bool)
    requires data.textContainVector.None?
    requires OcrRuns(svc.cfg, skipOcr)
    requires PrepareImage(svc, image, data, skipOcr).Success?
    ensures var d := PrepareImage(svc, image, data, skipOcr).value;
      d.textContainVector.Some? <==> d.ocrText.Some?
  {
    PrepareImageFields(svc, image, data, skipOcr);
  }

  // ---------------------------------------------------------------------------
  // Single and batch indexing.

  datatype IndexError = Duplicate(id: Option<Id>) | PrepareFailed(e: PrepareError)

  /** `index_image`: the duplicate gate, then preparation, then one insert of the item. */
  function IndexImage(svc: IndexService, store: Store, image: Image, data: MappedImage,
                      skipOcr: bool, skipDuplicateCheck: bool): (r: Result<Store, IndexError>)
    ensures r == Failure(Duplicate(Some(data.id))) <==> !skipDuplicateCheck && data.id in store.ids
    ensures r.Failure? && r.error.PrepareFailed? <==>
      !(!skipDuplicateCheck && data.id in store.ids) && PrepareImage(svc, image, data, skipOcr).Failure?
    ensures r.Success? <==>
      !(!skipDuplicateCheck && data.id in store.ids) && PrepareImage(svc, image, data, skipOcr).Success?
    ensures r.Success? ==>
      && PrepareImage(svc, image, data, skipOcr).Success?
      && r.value.calls == store.calls + [[PrepareImage(svc, image, data, skipOcr).value]]
      && r.value.ids == store.ids + {data.id}
  {
    if !skipDuplicateCheck && IsPointDuplicate(store, [data]) then Failure(Duplicate(Some(data.id)))
    else match PrepareImage(svc, image, data, skipOcr)
      case Failure(e) => Failure(PrepareFailed(e))
      case Success(d) =>
        assert [d][0].id == data.id;
        assert IdsOf([d]) == {data.id};
        Success(InsertItems(store, [d]))
  }

  /** Indexing content a second time without skipping the check is refused, and
      the refusal carries the id. */
  lemma SecondIndexIsRejected(svc: IndexService, store: Store, image: Image, data: MappedImage, skipOcr: bool,
                              skipCheck: bool, image2: Image, data2: MappedImage, skipOcr2: bool)
    requires IndexImage(svc, store, image, data, skipOcr, skipCheck).Success?
    requires data2.id == data.id
    ensures IndexImage(svc, IndexImage(svc, store, image, data, skipOcr, skipCheck).value, image2, data2, skipOcr2, false)
         == Failure(Duplicate(Some(data.id)))
  {
  }

  /** `_prepare_image` with its options fixed, as a function value. */
  function Preparer(svc: IndexService, skipOcr: bool): (Image, MappedImage) -> Result<MappedImage, PrepareError> {
    (img, d) => PrepareImage(svc, img, d, skipOcr)
  }

  /** The preparation loop over `zip(image, image_data)`: items past the
      shorter list are left as they are; the first exception aborts. */
  function PrepareZip(prep: (Image, MappedImage) -> Result<MappedImage, PrepareError>,
                      images: seq<Image>, datas: seq<MappedImage>): (r: Result<seq<MappedImage>, PrepareError>)
    ensures r.Success? ==> |r.value| == |datas|
  {
    if |images| == 0 || |datas| == 0 then Success(datas)
    else match prep(images[0], datas[0])
      case Failure(e) => Failure(e)
      case Success(d) =>
        match PrepareZip(prep, images[1..], datas[1..])
        case Failure(e) => Failure(e)
        case Success(rest) => Success([d] + rest)
  }

  /** What the zip loop does item by item: the paired items are prepared, the
      unpaired ones pass through, and it fails iff some paired item fails. */
  lemma {:induction false} PrepareZipItems(prep: (Image, MappedImage) -> Result<MappedImage, PrepareError>,
                                           images: seq<Image>, datas: seq<MappedImage>)
    ensures var r := PrepareZip(prep, images, datas);
      && (r.Success? ==> forall i :: |images| <= i < |datas| ==> r.value[i] == datas[i])
      && (r.Success? ==> forall i :: 0 <= i < |images| && i < |datas| ==> prep(images[i], datas[i]) == Success(r.value[i]))
      && (r.Failure? <==> exists i :: 0 <= i < |images| && i < |datas| && prep(images[i], datas[i]).Failure?)
  {
    if |images| > 0 && |datas| > 0 {
      PrepareZipItems(prep, images[1..], datas[1..]);
      assert forall i :: 1 <= i < |datas| ==> datas[i] == datas[1..][i - 1];
      assert forall i :: 1 <= i < |images| ==> images[i] == images[1..][i - 1];
      var r := PrepareZip(prep, images, datas);
      var first := prep(images[0], datas[0]);
      if first.Success? {
        var tail := PrepareZip(prep, images[1..], datas[1..]);
        if tail.Failure? {
          var k :| 0 <= k < |images[1..]| && k < |datas[1..]| && prep(images[1..][k], datas[1..][k]).Failure?;
          assert prep(images[k + 1], datas[k + 1]).Failure?;
        } else {
          assert r.value == [first.value] + tail.value;
          forall i | 1 <= i < |images| && i < |datas|
            ensures prep(images[i], datas[i]) == Success(r.value[i])
          {
            assert r.value[i] == tail.value[i - 1];
          }
        }
      }
    }
  }

  /** Preparing a batch keeps every item's identity, so the ids to insert are the ids given. */
  lemma PrepareZipKeepsIds(svc: IndexService, skipOcr: bool, images: seq<Image>, datas: seq<MappedImage>)
    requires PrepareZip(Preparer(svc, skipOcr), images, datas).Success?
    ensures var prepared := PrepareZip(Preparer(svc, skipOcr), images, datas).value;
      forall i :: 0 <= i < |datas| ==> SameIdentity(prepared[i], datas[i])
    ensures IdsOf(PrepareZip(Preparer(svc, skipOcr), images, datas).value) == IdsOf(datas)
  {
    var prepared := PrepareZip(Preparer(svc, skipOcr), images, datas).value;
    PrepareZipItems(Preparer(svc, skipOcr), images, datas);
    forall i | 0 <= i < |datas| ensures SameIdentity(prepared[i], datas[i]) {
      if i < |images| {
        assert Preparer(svc, skipOcr)(images[i], datas[i]) == Success(prepared[i]);
      }
    }
    assert forall i :: 0 <= i < |datas| ==> prepared[i].id == datas[i].id;
  }

  /** `index_image_batch`: without `allow_overwrite`, any stored id aborts the
      whole batch before anything is prepared; otherwise one insert of the whole list. */
  function IndexImageBatch(svc: IndexService, store: Store, images: seq<Image>, datas: seq<MappedImage>,
                           skipOcr: bool, allowOverwrite: bool): (r: Result<Store, IndexError>)
    ensures r == Failure(Duplicate(None)) <==>
      !allowOverwrite && exists i :: 0 <= i < |datas| && datas[i].id in store.ids
    ensures (r.Failure? && r.error.PrepareFailed?) <==>
      !(!allowOverwrite && exists i :: 0 <= i < |datas| && datas[i].id in store.ids)
      && PrepareZip(Preparer(svc, skipOcr), images, datas).Failure?
    ensures r.Success? <==>
      !(!allowOverwrite && exists i :: 0 <= i < |datas| && datas[i].id in store.ids)
      && PrepareZip(Preparer(svc, skipOcr), images, datas).Success?
    ensures r.Success? ==>
      && PrepareZip(Preparer(svc, skipOcr), images, datas).Success?
      && r.value.calls == store.calls + [PrepareZip(Preparer(svc, skipOcr), images, datas).value]
      && r.value.ids == store.ids + IdsOf(datas)
  {
    if !allowOverwrite && IsPointDuplicate(store, datas) then Failure(Duplicate(None))
    else match PrepareZip(Preparer(svc, skipOcr), images, datas)
      case Failure(e) => Failure(PrepareFailed(e))
      case Success(prepared) =>
        PrepareZipKeepsIds(svc, skipOcr, images, datas);
        Success(InsertItems(store, prepared))
  }

  // ---------------------------------------------------------------------------
  // Bulk initialisation.

  /** The recursive glob for one extension: names ending with it, case-sensitively. */
  function GlobFor(listing: seq<DirEntry>, ext: string): (r: seq<Path>)
    ensures forall p :: p in r <==> exists i :: 0 <= i < |listing| && EndsWith(listing[i].name, ext) && p == FullPath(listing[i])
  {
    if |listing| == 0 then []
    else
      assert forall i :: 1 <= i < |listing| ==> listing[i] == listing[1..][i - 1];
      (if EndsWith(listing[0].name, ext) then [FullPath(listing[0])] else []) + GlobFor(listing[1..], ext)
  }

  /** The file list of `initialize_index`: one glob per extension, concatenated. */
  function GlobFiles(exts: seq<string>, listing: seq<DirEntry>): (r: seq<Path>)
    ensures forall p :: p in r <==>
      exists i, j :: 0 <= i < |listing| && 0 <= j < |exts| && EndsWith(listing[i].name, exts[j]) && p == FullPath(listing[i])
  {
    if |exts| == 0 then []
    else
      var first := GlobFor(listing, exts[0]);
      var rest := GlobFiles(exts[1..], listing);
      assert forall j :: 1 <= j < |exts| ==> exts[j] == exts[1..][j - 1];
      first + rest
  }

  /** The two inventories differ: the local search scan lower-cases names, the
      bulk indexer's glob does not, so `IMG.JPG` is found by one only. */
  lemma GlobIsCaseSensitive(cfg: Config)
    requires cfg.localSearchEnabled && cfg.extensions == [".jpg"]
    ensures LocalSearch.HasImageExtension(cfg, "IMG.JPG")
    ensures GlobFiles(cfg.extensions, [DirEntry("/img", "IMG.JPG")]) == []
  {
    var name: string := "IMG.JPG";
    assert Lower(name) == "img.jpg";
    assert EndsWith(Lower(name), cfg.extensions[0]);
    assert !EndsWith(name, ".jpg") by {
      assert name[|name| - 4..] == ".JPG";
    }
  }

  /** The stored format: the image's format lower-cased, or `"unknown"` when it has none. */
  function FormatName(img: Image): string {
    if img.format.Some? && img.format.value != "" then Lower(img.format.value) else "unknown"
  }

  /** The item `initialize_index` builds for a file before preparing it. */
  function NewLocalItem(svc: IndexService, path: Path, img: Image, id: Id): (d: MappedImage)
    requires img.height > 0
    ensures d.id == id && d.local && d.url == "file://" + svc.env.absolute(path)
    ensures d.format == Some(FormatName(img))
    ensures d.comments == Some("Original path: " + path)
    ensures d.payload.Keys == {"filename", "width", "height", "aspect_ratio"}
    ensures d.payload["filename"] == Str(LastSegment(path, '/'))
    ensures d.payload["width"] == Num(img.width as real) && d.payload["height"] == Num(img.height as real)
    ensures d.payload["aspect_ratio"].Num? && d.payload["aspect_ratio"].n * img.height as real == img.width as real
    ensures d.width.None? && d.height.None? && d.imageVector.None? && d.ocrText.None? && d.tags.None?
  {
    var w, h := img.width as real, img.height as real;
    MappedImage(
      id, "file://" + svc.env.absolute(path), true, Some(FormatName(img)),
      None, None, None, None, None, None, None,
      map["filename" := Str(LastSegment(path, '/')), "width" := Num(w), "height" := Num(h), "aspect_ratio" := Num(w / h)],
      None, false, Some("Original path: " + path))
  }

  /** A file the scan can index: it opens, it can be read, its height is
      non-zero and the vision encoder accepts it. */
  predicate Buildable(env: Env, path: Path) {
    && env.open(path).Some? && env.readBytes(path).Some?
    && env.open(path).value.height > 0
    && env.imageVector(ToRgb(env.open(path).value)).Some?
  }

  /** The body of the per-file `try`: `None` when opening, reading, the
      division or preparation raises. */
  function BuildItem(svc: IndexService, path: Path): (r: Option<MappedImage>)
    ensures r.Some? <==> Buildable(svc.env, path)
    ensures r.Some? ==>
      && r.value.id == ContentId(svc.env, svc.env.readBytes(path).value)
      && r.value.local
      && r.value.url == "file://" + svc.env.absolute(path)
      && r.value.format == Some(FormatName(svc.env.open(path).value))
      && r.value.imageVector.Some?
      && LocalSearch.NumericDims(r.value.payload)
      && "filename" in r.value.payload && r.value.payload["filename"] == Str(LastSegment(path, '/'))
      && "width" in r.value.payload && "height" in r.value.payload && "aspect_ratio" in r.value.payload
      && r.value.width.Some? && r.value.height.Some? && r.value.aspectRatio.Some?
      && r.value.payload["width"] == Num(r.value.width.value as real)
      && r.value.payload["height"] == Num(r.value.height.value as real)
      && r.value.payload["aspect_ratio"] == Num(r.value.aspectRatio.value)
    // The item is the fresh local item prepared from the opened image, with
    // OCR skipped exactly when OCR search is off.
    ensures r.Some? ==>
      var img := svc.env.open(path).value;
      var d0 := NewLocalItem(svc, path, img, ContentId(svc.env, svc.env.readBytes(path).value));
      && PrepareImage(svc, img, d0, !svc.cfg.ocrEnabled).Success?
      && r.value == PrepareImage(svc, img, d0, !svc.cfg.ocrEnabled).value
      && r.value.width == Some(img.width as int) && r.value.height == Some(img.height as int)
      && r.value.imageVector == svc.env.imageVector(ToRgb(img))
  {
    match svc.env.open(path)
    case None => None
    case Some(img) =>
      match GenerateImageId(svc.env, path)
      case None => None
      case Some(id) =>
        if img.height == 0 then None
        else (
          var initial := NewLocalItem(svc, path, img, id);
          match PrepareImage(svc, img, initial, !svc.cfg.ocrEnabled)
          case Failure(_) => None
          case Success(d) =>
            assert d.payload == initial.payload;
            Some(d))
  }

  /** The per-file step of the scan as a function value. */
  function Builder(svc: IndexService): Path -> Option<MappedImage> {
    p => BuildItem(svc, p)
  }

  /** The items built from the files that succeed, in file order. */
  function Survivors(build: Path -> Option<MappedImage>, files: seq<Path>): seq<MappedImage>
  {
    if |files| == 0 then []
    else
      var last := files[|files| - 1];
      Survivors(build, files[..|files| - 1]) + (match build(last) case Some(d) => [d] case None => [])
  }

  lemma {:induction false} SurvivorsAppend(build: Path -> Option<MappedImage>, a: seq<Path>, b: seq<Path>)
    ensures Survivors(build, a + b) == Survivors(build, a) + Survivors(build, b)
    decreases |b|
  {
    if |b| == 0 {
      assert a + b == a;
    } else {
      var b' := b[..|b| - 1];
      assert (a + b)[..|a + b| - 1] == a + b';
      SurvivorsAppend(build, a, b');
    }
  }

  lemma {:induction false} AllSucceed(build: Path -> Option<MappedImage>, files: seq<Path>)
    requires forall i :: 0 <= i < |files| ==> build(files[i]).Some?
    ensures |Survivors(build, files)| == |files|
  {
    if |files| > 0 {
      AllSucceed(build, files[..|files| - 1]);
    }
  }

  /** A single unreadable file among readable ones costs exactly that file. */
  lemma OneFailureSkipped(build: Path -> Option<MappedImage>, files: seq<Path>, k: int)
    requires 0 <= k < |files| && build(files[k]).None?
    requires forall i :: 0 <= i < |files| && i != k ==> build(files[i]).Some?
    ensures |Survivors(build, files)| == |files| - 1
  {
    var before, after := files[..k], files[k + 1..];
    assert files == before + [files[k]] + after;
    SurvivorsAppend(build, before + [files[k]], after);
    SurvivorsAppend(build, before, [files[k]]);
    assert [files[k]][..0] == [];
    AllSucceed(build, before);
    assert forall i :: 0 <= i < |after| ==> after[i] == files[k + 1 + i];
    AllSucceed(build, after);
  }

  /** Among buildable files, one file that cannot be opened costs exactly its
      own item in the scan. */
  lemma CorruptFileSkipped(svc: IndexService, files: seq<Path>, k: int)
    requires 0 <= k < |files| && svc.env.open(files[k]).None?
    requires forall i :: 0 <= i < |files| && i != k ==> Buildable(svc.env, files[i])
    ensures |Survivors(Builder(svc), files)| == |files| - 1
  {
    OneFailureSkipped(Builder(svc), files, k);
  }

  /** `files[i:i + 10]` for `i` in `range(0, len(files), 10)`. */
  function Chunks(files: seq<Path>): (r: seq<seq<Path>>)
    ensures |r| == 0 <==> |files| == 0
    ensures forall c :: c in r ==> 0 < |c| <= BatchSize
    ensures forall i :: 0 <= i < |r| - 1 ==> |r[i]| == BatchSize
    decreases |files|
  {
    if |files| == 0 then []
    else
      var n := Min(BatchSize, |files|);
      [files[..n]] + Chunks(files[n..])
  }

  function Flatten<T>(xs: seq<seq<T>>): seq<T>
  {
    if |xs| == 0 then [] else xs[0] + Flatten(xs[1..])
  }

  /** The batches cover the file list, in order. */
  lemma {:induction false} ChunksCover(files: seq<Path>)
    ensures Flatten(Chunks(files)) == files
    decreases |files|
  {
    if |files| > 0 {
      var n := Min(BatchSize, |files|);
      ChunksCover(files[n..]);
      assert files == files[..n] + files[n..];
    }
  }

  /** The `insert_items` calls the scan makes: one per batch with a survivor. */
  function BatchCalls(build: Path -> Option<MappedImage>, chunks: seq<seq<Path>>): seq<seq<MappedImage>>
  {
    if |chunks| == 0 then []
    else
      var items := Survivors(build, chunks[0]);
      (if |items| > 0 then [items] else []) + BatchCalls(build, chunks[1..])
  }

  lemma {:induction false} SurvivorsBound(build: Path -> Option<MappedImage>, files: seq<Path>)
    ensures |Survivors(build, files)| <= |files|
  {
    if |files| > 0 {
      SurvivorsBound(build, files[..|files| - 1]);
    }
  }

  /** Each call inserts between one and ten items. */
  lemma {:induction false} BatchCallSizes(build: Path -> Option<MappedImage>, chunks: seq<seq<Path>>)
    requires forall c :: c in chunks ==> 0 < |c| <= BatchSize
    ensures forall call :: call in BatchCalls(build, chunks) ==> 0 < |call| <= BatchSize
  {
    if |chunks| > 0 {
      assert chunks[0] in chunks;
      assert forall c :: c in chunks[1..] ==> c in chunks;
      BatchCallSizes(build, chunks[1..]);
      SurvivorsBound(build, chunks[0]);
    }
  }

  /** Together the calls insert exactly the survivors of all the chunks, in order. */
  lemma {:induction false} BatchCallsFlatten(build: Path -> Option<MappedImage>, chunks: seq<seq<Path>>)
    ensures Flatten(BatchCalls(build, chunks)) == Survivors(build, Flatten(chunks))
  {
    if |chunks| > 0 {
      BatchCallsFlatten(build, chunks[1..]);
      SurvivorsAppend(build, chunks[0], Flatten(chunks[1..]));
      var items := Survivors(build, chunks[0]);
      var rest := BatchCalls(build, chunks[1..]);
      if |items| > 0 {
        assert ([items] + rest)[1..] == rest;
        assert Flatten([items] + rest) == items + Flatten(rest);
      } else {
        assert BatchCalls(build, chunks) == rest;
      }
    }
  }

  function InsertAll(store: Store, calls: seq<seq<MappedImage>>): Store
    decreases |calls|
  {
    if |calls| == 0 then store else InsertAll(InsertItems(store, calls[0]), calls[1..])
  }

  lemma {:induction false} InsertAllLogsCalls(store: Store, calls: seq<seq<MappedImage>>)
    ensures InsertAll(store, calls).calls == store.calls + calls
    decreases |calls|
  {
    if |calls| > 0 {
      InsertAllLogsCalls(InsertItems(store, calls[0]), calls[1..]);
      assert store.calls + [calls[0]] + calls[1..] == store.calls + calls;
    }
  }

  /** The inner loop of one batch: the items of the files that succeed. */
  method BuildBatch(build: Path -> Option<MappedImage>, batch: seq<Path>) returns (items: seq<MappedImage>)
    ensures items == Survivors(build, batch)
  {
    items := [];
    var j := 0;
    while j < |batch|
      invariant 0 <= j <= |batch|
      invariant items == Survivors(build, batch[..j])
    {
      var built := build(batch[j]);
      if built.Some? {
        items := items + [built.value];
      }
      j := j + 1;
      assert batch[..j][..j - 1] == batch[..j - 1];
    }
    assert batch[..j] == batch;
  }

  /** One round of the outer loop, in terms of the remaining files: the first
      batch's survivors are inserted, when there are any, before the rest. */
  lemma BatchStep(build: Path -> Option<MappedImage>, r: Store, rest: seq<Path>, n: nat, items: seq<MappedImage>, r': Store)
    requires |rest| > 0 && n == Min(BatchSize, |rest|)
    requires items == Survivors(build, rest[..n])
    requires r' == if |items| > 0 then InsertItems(r, items) else r
    ensures InsertAll(r, BatchCalls(build, Chunks(rest))) == InsertAll(r', BatchCalls(build, Chunks(rest[n..])))
  {
    var cs := Chunks(rest);
    assert cs == [rest[..n]] + Chunks(rest[n..]);
    assert cs[0] == rest[..n];
    assert cs[1..] == Chunks(rest[n..]);
    var later := BatchCalls(build, Chunks(rest[n..]));
    assert BatchCalls(build, cs) == (if |items| > 0 then [items] else []) + later;
    if |items| > 0 {
      var calls := [items] + later;
      assert calls[0] == items;
      assert calls[1..] == later;
      assert InsertAll(r, calls) == InsertAll(InsertItems(r, items), later);
    } else {
      assert [] + later == later;
    }
  }

  /** The batching loop of `initialize_index` over its file list; `rest` is
      `files[i:]` for the loop's `i`. */
  method IndexBatches(build: Path -> Option<MappedImage>, files: seq<Path>, store: Store) returns (r: Store)
    ensures r == InsertAll(store, BatchCalls(build, Chunks(files)))
  {
    r := store;
    var rest := files;
    while |rest| > 0
      invariant InsertAll(r, BatchCalls(build, Chunks(rest))) == InsertAll(store, BatchCalls(build, Chunks(files)))
      decreases |rest|
    {
      var n := Min(BatchSize, |rest|);
      var items := BuildBatch(build, rest[..n]);
      var r' := if |items| > 0 then InsertItems(r, items) else r;
      BatchStep(build, r, rest, n, items, r');
      r, rest := r', rest[n..];
    }
    assert Chunks(rest) == [];
  }

  /** `initialize_index`, given whether the directory exists and what the
      per-extension globs see. */
  method InitializeIndex(svc: IndexService, dirExists: bool, listing: seq<DirEntry>, store: Store) returns (r: Store)
    ensures !svc.cfg.localSearchEnabled || !dirExists ==> r == store
    ensures svc.cfg.localSearchEnabled && dirExists ==>
      r == InsertAll(store, BatchCalls(Builder(svc), Chunks(GlobFiles(svc.cfg.extensions, listing))))
  {
    if !svc.cfg.localSearchEnabled || !dirExists {
      return store;
    }
    r := IndexBatches(Builder(svc), GlobFiles(svc.cfg.extensions, listing), store);
  }

  /** What the bulk scan does to the store: only new `insert_items` calls, each
      of one to ten items, inserting exactly the files that succeed, in order. */
  method InitializeIndexEffect(svc: IndexService, dirExists: bool, listing: seq<DirEntry>, store: Store)
    returns (r: Store, calls: seq<seq<MappedImage>>)
    ensures r.calls == store.calls + calls
    ensures forall call :: call in calls ==> 0 < |call| <= BatchSize
    ensures !svc.cfg.localSearchEnabled || !dirExists ==> calls == []
    ensures svc.cfg.localSearchEnabled && dirExists ==>
      Flatten(calls) == Survivors(Builder(svc), GlobFiles(svc.cfg.extensions, listing))
  {
    r := InitializeIndex(svc, dirExists, listing, store);
    if !svc.cfg.localSearchEnabled || !dirExists {
      calls := [];
      return;
    }
    var files := GlobFiles(svc.cfg.extensions, listing);
    calls := BatchCalls(Builder(svc), Chunks(files));
    InsertAllLogsCalls(store, calls);
    BatchCallSizes(Builder(svc), Chunks(files));
    BatchCallsFlatten(Builder(svc), Chunks(files));
    ChunksCover(files);
  }
}

=== FILE: local_search.dfy ===
/** The local search backend (`LocalSearchService`): the filter predicate, the
    basis-to-vector-name mapping, the forwarding query operations and the
    directory scan. */
module LocalSearch {
  import opened Common
  import opened Text
  import opened Domain

  const ImageVectorName := "image_vector"
  const TextVectorName := "text_contain_vector"

  // ---------------------------------------------------------------------------
  // Python truthiness of the optional filter fields and item fields.

  predicate TextSet(o: Option<string>) { o.Some? && o.value != "" }
  predicate IntSet(o: Option<int>) { o.Some? && o.value != 0 }
  predicate RealSet(o: Option<real>) { o.Some? && o.value != 0.0 }
  predicate TagsSet(o: Option<seq<string>>) { o.Some? && |o.value| > 0 }

  /** What `_passes_filters` can raise: comparing a number with `None` or with a string. */
  datatype FilterError = TypeError

  /** `payload.get(key, default)` used in a numeric comparison. */
  function NumOr(p: Payload, key: string, default: real): (r: Result<real, FilterError>)
    ensures r.Failure? <==> key in p && p[key].Str?
    ensures r.Success? && key in p ==> r.value == p[key].n
    ensures key !in p ==> r == Success(default)
  {
    if key !in p then Success(default)
    else match p[key]
      case Num(n) => Success(n)
      case Str(_) => Failure(TypeError)
  }

  predicate AnyTagContains(tags: seq<string>, query: string) {
    exists i | 0 <= i < |tags| :: Contains(Lower(tags[i]), Lower(query))
  }

  /** The ratio clause once `min_ratio` is known to be set: the lower bound is
      compared first, and `max_ratio` is only looked at when that passes. */
  function RatioCheck(p: Payload, lo: real, hi: Option<real>): (r: Result<bool, FilterError>)
    ensures r.Failure? <==> ("aspect_ratio" in p && p["aspect_ratio"].Str?)
                            || (hi.None? && NumOr(p, "aspect_ratio", 1.0).value >= lo)
  {
    match NumOr(p, "aspect_ratio", 1.0)
    case Failure(e) => Failure(e)
    case Success(ar) =>
      if ar < lo then Success(false)
      else if hi.None? then Failure(TypeError)
      else Success(ar <= hi.value)
  }

  /** `_passes_filters`: the item is kept when `Success(true)` comes back. */
  function PassesFilters(img: MappedImage, f: FilterParams): (r: Result<bool, FilterError>)
    ensures r.Failure? ==>
      || (IntSet(f.minWidth) && "width" in img.payload && img.payload["width"].Str?)
      || (IntSet(f.minHeight) && "height" in img.payload && img.payload["height"].Str?)
      || (RealSet(f.minRatio) && (f.maxRatio.None? || ("aspect_ratio" in img.payload && img.payload["aspect_ratio"].Str?)))
    // The clauses are tried in order, and a rejecting clause ends the check
    // before any later clause reads the payload.
    ensures TextSet(f.queryText) && TagsSet(img.tags) && !AnyTagContains(img.tags.value, f.queryText.value)
      ==> r == Success(false)
    ensures IntSet(f.minWidth) && NumOr(img.payload, "width", 0.0).Success?
      && NumOr(img.payload, "width", 0.0).value < f.minWidth.value as real
      ==> r == Success(false)
    ensures IntSet(f.minHeight) && NumOr(img.payload, "height", 0.0).Success?
      && NumOr(img.payload, "height", 0.0).value < f.minHeight.value as real
      && (!IntSet(f.minWidth) || NumOr(img.payload, "width", 0.0).Success?)
      ==> r == Success(false)
  {
    var p := img.payload;
    if TextSet(f.queryText) && TagsSet(img.tags) && !AnyTagContains(img.tags.value, f.queryText.value) then
      Success(false)
    else if IntSet(f.minWidth) && NumOr(p, "width", 0.0).Failure? then Failure(TypeError)
    else if IntSet(f.minWidth) && NumOr(p, "width", 0.0).value < f.minWidth.value as real then Success(false)
    else if IntSet(f.minHeight) && NumOr(p, "height", 0.0).Failure? then Failure(TypeError)
    else if IntSet(f.minHeight) && NumOr(p, "height", 0.0).value < f.minHeight.value as real then Success(false)
    else if RealSet(f.minRatio) then RatioCheck(p, f.minRatio.value, f.maxRatio)
    else Success(true)
  }

  // ---------------------------------------------------------------------------
  // The clauses of the filter stated one by one, as the reference the
  // predicate is checked against.

  /** The payload dimensions the filter reads are numbers when present. */
  predicate NumericDims(p: Payload) {
    && ("width" in p ==> p["width"].Num?)
    && ("height" in p ==> p["height"].Num?)
    && ("aspect_ratio" in p ==> p["aspect_ratio"].Num?)
  }

  function Dim(p: Payload, key: string, default: real): real {
    if key in p && p[key].Num? then p[key].n else default
  }

  /** Tag clause: the item has tags and none of them contains the query text. */
  predicate TagRejects(img: MappedImage, f: FilterParams) {
    && TextSet(f.queryText) && TagsSet(img.tags)
    && forall t :: t in img.tags.value ==> !Contains(Lower(t), Lower(f.queryText.value))
  }

  predicate WidthRejects(img: MappedImage, f: FilterParams) {
    IntSet(f.minWidth) && Dim(img.payload, "width", 0.0) < f.minWidth.value as real
  }

  predicate HeightRejects(img: MappedImage, f: FilterParams) {
    IntSet(f.minHeight) && Dim(img.payload, "height", 0.0) < f.minHeight.value as real
  }

  /** Ratio clause: the aspect ratio lies outside `[min_ratio, max_ratio]`. */
  predicate RatioRejects(img: MappedImage, f: FilterParams)
    requires RealSet(f.minRatio) ==> f.maxRatio.Some?
  {
    && RealSet(f.minRatio)
    && var ar := Dim(img.payload, "aspect_ratio", 1.0);
       !(f.minRatio.value <= ar <= f.maxRatio.value)
  }

  /** On a payload with numeric dimensions and a filter whose ratio range is
      closed, the predicate is the conjunction of its four clauses; the OCR
      text field plays no part. */
  lemma FiltersAreConjunction(img: MappedImage, f: FilterParams)
    requires NumericDims(img.payload)
    requires RealSet(f.minRatio) ==> f.maxRatio.Some?
    ensures PassesFilters(img, f) ==
      Success(!TagRejects(img, f) && !WidthRejects(img, f) && !HeightRejects(img, f) && !RatioRejects(img, f))
  {
    if TextSet(f.queryText) && TagsSet(img.tags) {
      var tags := img.tags.value;
      var q := f.queryText.value;
      if AnyTagContains(tags, q) {
        var i :| 0 <= i < |tags| && Contains(Lower(tags[i]), Lower(q));
        assert tags[i] in tags;
      } else {
        forall t | t in tags ensures !Contains(Lower(t), Lower(q)) {
          var i :| 0 <= i < |tags| && tags[i] == t;
        }
      }
    }
  }

  /** With every filter field unset (or falsy) every item passes, whatever its payload. */
  lemma UnsetFilterPassesAll(img: MappedImage, f: FilterParams)
    requires !TextSet(f.queryText) && !IntSet(f.minWidth) && !IntSet(f.minHeight) && !RealSet(f.minRatio)
    ensures PassesFilters(img, f) == Success(true)
  {
  }

  /** The OCR text of a filter is never consulted by the local predicate. */
  lemma OcrTextIgnored(img: MappedImage, f: FilterParams, text: Option<string>)
    ensures PassesFilters(img, f.(ocrText := text)) == PassesFilters(img, f)
  {
  }

  /** An item without tags is never rejected by the tag clause. */
  lemma UntaggedPassesTagClause(img: MappedImage, f: FilterParams)
    requires !TagsSet(img.tags)
    requires !IntSet(f.minWidth) && !IntSet(f.minHeight) && !RealSet(f.minRatio)
    ensures PassesFilters(img, f) == Success(true)
  {
  }

  /** Two concrete cases: a 50-pixel-wide item fails `min_width = 100`, and tags
      `["cat", "outdoor"]` satisfy the query text `"CAT"`. */
  lemma FilterExamples(img: MappedImage)
    requires img.payload == map["width" := Num(50.0)]
    requires img.tags == Some(["cat", "outdoor"])
    ensures PassesFilters(img, NoFilter.(minWidth := Some(100))) == Success(false)
    ensures PassesFilters(img, NoFilter.(queryText := Some("CAT"))) == Success(true)
  {
    var q: string := "CAT";
    assert Lower(q) == "cat";
    assert Lower("cat") == "cat";
    assert MatchesAt(Lower(img.tags.value[0]), Lower(q), 0);
  }

  // ---------------------------------------------------------------------------
  // Basis to vector name.

  /** `vector_name_for_basis`. */
  function VectorNameForBasis(basis: Basis): (name: string)
    ensures name == ImageVectorName || name == TextVectorName
    ensures BasisForVectorName(name) == Some(basis)
  {
    match basis
    case Vision => ImageVectorName
    case Ocr => TextVectorName
  }

  /** The inverse mapping: which basis a stored vector name belongs to. */
  function BasisForVectorName(name: string): (b: Option<Basis>)
  {
    if name == ImageVectorName then Some(Vision)
    else if name == TextVectorName then Some(Ocr)
    else None
  }

  /** The two bases name two different vectors, and the name determines the basis. */
  lemma VectorNameRoundTrip(basis: Basis, other: Basis)
    ensures BasisForVectorName(VectorNameForBasis(basis)) == Some(basis)
    ensures VectorNameForBasis(basis) == VectorNameForBasis(other) <==> basis == other
    ensures VectorNameForBasis(Vision) == "image_vector" && VectorNameForBasis(Ocr) == "text_contain_vector"
  {
  }

  // ---------------------------------------------------------------------------
  // Queries.

  /** `query_search`: empty when local search is disabled, otherwise the vector
      database's answer to the very same arguments. */
  function QuerySearch(cfg: Config, db: QueryCall -> seq<SearchResult>, call: QueryCall): (r: seq<SearchResult>)
    ensures !cfg.localSearchEnabled ==> r == []
    ensures cfg.localSearchEnabled ==> r == db(call)
  {
    if !cfg.localSearchEnabled then [] else db(call)
  }

  predicate HasPositives(call: SimilarCall) {
    call.positives.Some? && |call.positives.value| > 0
  }

  /** The single-vector query `query_similar` stands for when it has a positive vector. */
  function FirstPositiveQuery(call: SimilarCall): QueryCall
    requires HasPositives(call)
  {
    QueryCall(call.positives.value[0], call.vectorName, call.topK, call.skip, call.filter)
  }

  /** `query_similar`: only the first positive vector is used. */
  function QuerySimilar(cfg: Config, db: QueryCall -> seq<SearchResult>, call: SimilarCall): (r: seq<SearchResult>)
    ensures !HasPositives(call) ==> r == []
    ensures HasPositives(call) ==> r == QuerySearch(cfg, db, FirstPositiveQuery(call))
  {
    if HasPositives(call) then QuerySearch(cfg, db, FirstPositiveQuery(call)) else []
  }

  /** Two composition queries that agree on the first positive vector, the
      vector name, `top_k`, `skip` and the filter give the same answer: the
      search id, the other positives, the negatives, the mode and
      `with_vectors` have no effect. */
  lemma QuerySimilarIgnoresComposition(cfg: Config, db: QueryCall -> seq<SearchResult>, a: SimilarCall, b: SimilarCall)
    requires HasPositives(a) && HasPositives(b)
    requires a.positives.value[0] == b.positives.value[0]
    requires a.vectorName == b.vectorName && a.topK == b.topK && a.skip == b.skip && a.filter == b.filter
    ensures QuerySimilar(cfg, db, a) == QuerySimilar(cfg, db, b)
  {
  }

  /** The local backend as the controller sees it. */
  function LocalBackend(cfg: Config, db: QueryCall -> seq<SearchResult>): SearchBackend {
    SearchBackend(c => QuerySearch(cfg, db, c), c => QuerySimilar(cfg, db, c))
  }

  // ---------------------------------------------------------------------------
  // Directory scan.

  /** A file is an image when its lower-cased name ends with a configured extension. */
  predicate HasImageExtension(cfg: Config, name: string) {
    exists i | 0 <= i < |cfg.extensions| :: EndsWith(Lower(name), cfg.extensions[i])
  }

  /** The kept paths in walk order: the reference the scan is checked against. */
  function KeptPaths(cfg: Config, walk: seq<DirEntry>): seq<Path>
  {
    if |walk| == 0 then []
    else
      var last := walk[|walk| - 1];
      KeptPaths(cfg, walk[..|walk| - 1]) + (if HasImageExtension(cfg, last.name) then [FullPath(last)] else [])
  }

  /** The reference keeps exactly the walked files with an image extension,
      at most one path per walked entry. */
  lemma {:induction false} KeptPathsMembers(cfg: Config, walk: seq<DirEntry>)
    ensures |KeptPaths(cfg, walk)| <= |walk|
    ensures forall p :: p in KeptPaths(cfg, walk) <==>
      exists i :: 0 <= i < |walk| && HasImageExtension(cfg, walk[i].name) && p == FullPath(walk[i])
  {
    if |walk| > 0 {
      var init := walk[..|walk| - 1];
      KeptPathsMembers(cfg, init);
      assert forall i :: 0 <= i < |init| ==> init[i] == walk[i];
    }
  }

  /** `_scan_directory`, given whether the directory exists and what walking it yields. */
  method ScanDirectory(cfg: Config, dirExists: bool, walk: seq<DirEntry>) returns (files: seq<Path>)
    ensures !cfg.localSearchEnabled || !dirExists ==> files == []
    ensures cfg.localSearchEnabled && dirExists ==> files == KeptPaths(cfg, walk)
  {
    files := [];
    if !cfg.localSearchEnabled || !dirExists {
      return;
    }
    var i := 0;
    while i < |walk|
      invariant 0 <= i <= |walk|
      invariant files == KeptPaths(cfg, walk[..i])
    {
      if HasImageExtension(cfg, walk[i].name) {
        files := files + [FullPath(walk[i])];
      }
      i := i + 1;
      assert walk[..i][..i - 1] == walk[..i - 1];
    }
    assert walk[..i] == walk;
  }
}

=== FILE: ranking.dfy ===
/** The stable descending sort on scores that `list.sort(key=score,
    reverse=True)` performs, with its specification: the output is ordered by
    score from highest to lowest, and for every score the results carrying it
    appear in their input order. */
module Ranking {
  import opened Domain

  predicate SortedDesc(s: seq<SearchResult>) {
    forall i, j :: 0 <= i < j < |s| ==> s[i].score >= s[j].score
  }

  /** The results with score `k`, in the order they appear in `s`. */
  function WithScore(s: seq<SearchResult>, k: real): seq<SearchResult>
  {
    if |s| == 0 then []
    else (if s[0].score == k then [s[0]] else []) + WithScore(s[1..], k)
  }

  /** The selected results come from `s` and carry score `k`. */
  lemma {:induction false} WithScoreMembers(s: seq<SearchResult>, k: real)
    ensures forall x :: x in WithScore(s, k) ==> x in s && x.score == k
  {
    if |s| > 0 {
      WithScoreMembers(s[1..], k);
    }
  }

  /** A result that scores at least the head of a sorted list may go before it. */
  lemma ConsSorted(y: SearchResult, t: seq<SearchResult>)
    requires SortedDesc(t)
    requires |t| == 0 || y.score >= t[0].score
    ensures SortedDesc([y] + t)
  {
    var u := [y] + t;
    forall i, j | 0 <= i < j < |u| ensures u[i].score >= u[j].score {
      if i == 0 {
        assert u[j] == t[j - 1];
        assert t[0].score >= t[j - 1].score;
      } else {
        assert u[i] == t[i - 1] && u[j] == t[j - 1];
      }
    }
  }

  /** Places `x` in front of the first result that does not outscore it, so it
      precedes every result of equal score. */
  function Insert(x: SearchResult, s: seq<SearchResult>): (r: seq<SearchResult>)
    requires SortedDesc(s)
    ensures |r| == |s| + 1
    ensures r[0] == x || (|s| > 0 && r[0] == s[0])
    ensures SortedDesc(r)
    ensures multiset(r) == multiset(s) + multiset{x}
  {
    if |s| == 0 then [x]
    else if x.score >= s[0].score then
      ConsSorted(x, s);
      [x] + s
    else
      var tail := s[1..];
      assert SortedDesc(tail);
      var rest := Insert(x, tail);
      assert s[0].score >= rest[0].score;
      ConsSorted(s[0], rest);
      assert s == [s[0]] + tail;
      [s[0]] + rest
  }

  /** Insertion sort, highest score first. */
  function SortByScoreDesc(s: seq<SearchResult>): (r: seq<SearchResult>)
    ensures SortedDesc(r)
    ensures multiset(r) == multiset(s)
    ensures |r| == |s|
  {
    if |s| == 0 then []
    else
      var rest := SortByScoreDesc(s[1..]);
      assert s == [s[0]] + s[1..];
      Insert(s[0], rest)
  }

  lemma {:induction false} WithScoreAppend(a: seq<SearchResult>, b: seq<SearchResult>, k: real)
    ensures WithScore(a + b, k) == WithScore(a, k) + WithScore(b, k)
    decreases |a|
  {
    if |a| == 0 {
      assert a + b == b;
    } else {
      WithScoreAppend(a[1..], b, k);
      var c := a + b;
      assert |c| > 0 && c[0] == a[0] && c[1..] == a[1..] + b;
      var hd := if a[0].score == k then [a[0]] else [];
      assert WithScore(c, k) == hd + WithScore(a[1..] + b, k);
      assert WithScore(a, k) == hd + WithScore(a[1..], k);
      assert hd + (WithScore(a[1..], k) + WithScore(b, k)) == (hd + WithScore(a[1..], k)) + WithScore(b, k);
    }
  }

  lemma WithScoreSingle(y: SearchResult, k: real)
    ensures WithScore([y], k) == if y.score == k then [y] else []
  {
    assert [y][1..] == [];
  }

  /** Moving `x` past a result of another score changes no score's order. */
  lemma SwapPastOtherScore(x: SearchResult, h: SearchResult, tail: seq<SearchResult>,
                           rest: seq<SearchResult>, k: real)
    requires x.score != h.score
    requires WithScore(rest, k) == WithScore([x] + tail, k)
    ensures WithScore([h] + rest, k) == WithScore([x] + ([h] + tail), k)
  {
    var hs, xs, ts := WithScore([h], k), WithScore([x], k), WithScore(tail, k);
    assert WithScore([h] + rest, k) == hs + (xs + ts) by {
      WithScoreAppend([h], rest, k);
      WithScoreAppend([x], tail, k);
    }
    assert WithScore([x] + ([h] + tail), k) == xs + (hs + ts) by {
      WithScoreAppend([x], [h] + tail, k);
      WithScoreAppend([h], tail, k);
    }
    assert hs == [] || xs == [] by {
      WithScoreSingle(h, k);
      WithScoreSingle(x, k);
    }
    if hs == [] {
      assert hs + (xs + ts) == xs + ts == xs + (hs + ts);
    } else {
      assert hs + (xs + ts) == hs + ts == xs + (hs + ts);
    }
  }

  /** Inserting keeps, for every score, the order `[x] + s` had. */
  lemma {:induction false} InsertIsStable(x: SearchResult, s: seq<SearchResult>, k: real)
    requires SortedDesc(s)
    ensures WithScore(Insert(x, s), k) == WithScore([x] + s, k)
    decreases |s|
  {
    if |s| > 0 && x.score < s[0].score {
      var h, tail := s[0], s[1..];
      assert s == [h] + tail;
      InsertIsStable(x, tail, k);
      SwapPastOtherScore(x, h, tail, Insert(x, tail), k);
    }
  }

  /** The sort is stable: for every score, the results with that score keep their input order. */
  lemma {:induction false} SortIsStable(s: seq<SearchResult>, k: real)
    ensures WithScore(SortByScoreDesc(s), k) == WithScore(s, k)
  {
    if |s| > 0 {
      var t := s[1..];
      var st := SortByScoreDesc(t);
      assert SortByScoreDesc(s) == Insert(s[0], st);
      SortIsStable(t, k);
      InsertIsStable(s[0], st, k);
      WithScoreAppend([s[0]], st, k);
      WithScoreAppend([s[0]], t, k);
      assert s == [s[0]] + t;
    }
  }

  lemma HeadOfWithScore(s: seq<SearchResult>)
    requires |s| > 0
    ensures WithScore(s, s[0].score) == [s[0]] + WithScore(s[1..], s[0].score)
  {
  }

  lemma {:induction false} ScoreBoundedByHead(s: seq<SearchResult>, k: real)
    requires SortedDesc(s) && |s| > 0
    requires |WithScore(s, k)| > 0
    ensures k <= s[0].score
  {
    var x := WithScore(s, k)[0];
    assert x in WithScore(s, k);
    WithScoreMembers(s, k);
    var i :| 0 <= i < |s| && s[i] == x;
  }

  lemma TailWithScore(s: seq<SearchResult>, k: real)
    requires |s| > 0
    ensures WithScore(s[1..], k) == if s[0].score == k then WithScore(s, k)[1..] else WithScore(s, k)
  {
  }

  /** Ordering by score and keeping each score's relative order determine the
      output completely: two sequences with both properties and the same
      per-score subsequences are equal. */
  lemma {:induction false} StableOrderIsUnique(a: seq<SearchResult>, b: seq<SearchResult>)
    requires SortedDesc(a) && SortedDesc(b)
    requires forall k :: WithScore(a, k) == WithScore(b, k)
    ensures a == b
    decreases |a|
  {
    if |a| == 0 {
      if |b| > 0 {
        HeadOfWithScore(b);
        assert false;
      }
    } else if |b| == 0 {
      HeadOfWithScore(a);
      assert false;
    } else {
      var ka, kb := a[0].score, b[0].score;
      HeadOfWithScore(a);
      HeadOfWithScore(b);
      ScoreBoundedByHead(b, ka);
      ScoreBoundedByHead(a, kb);
      assert ka == kb;
      assert a[0] == WithScore(a, ka)[0] == WithScore(b, ka)[0] == b[0];
      forall k ensures WithScore(a[1..], k) == WithScore(b[1..], k) {
        TailWithScore(a, k);
        TailWithScore(b, k);
      }
      StableOrderIsUnique(a[1..], b[1..]);
    }
  }

  /** The sort is exactly the stable descending reordering of its input: any
      sequence ordered by score that keeps each score's input order equals it. */
  lemma SortIsTheStableSort(s: seq<SearchResult>, t: seq<SearchResult>)
    requires SortedDesc(t)
    requires forall k :: WithScore(t, k) == WithScore(s, k)
    ensures SortByScoreDesc(s) == t
  {
    forall k ensures WithScore(SortByScoreDesc(s), k) == WithScore(t, k) {
      SortIsStable(s, k);
    }
    StableOrderIsUnique(SortByScoreDesc(s), t);
  }
}

=== FILE: search_controller.dfy ===
/** The search controller's decision logic: basis validation, the text search
    plan with its exact-OCR rule, the composition query and its inflated
    `top_k`, cross-modal re-scoring, the stable re-sort and truncation of
    combined search, and the storage post-processing of results. */
module SearchController {
  import opened Common
  import opened Text
  import opened Domain
  import opened LocalSearch
  import opened Ranking

  /** The two refusals of the controller: "OCR search is not enabled." from the
      basis check, and "You used combined search, but it needs OCR search which
      is not enabled." from combined search. */
  datatype Refusal = OcrSearchDisabled | CombinedNeedsOcr

  datatype HttpError = HttpError(status: int, detail: Refusal)

  /** The encoders and the cosine function reached through the service provider. */
  datatype Encoders = Encoders(
    clipText: string -> Vector,
    bert: string -> Vector,
    cosine: (Vector, Vector) -> real)

  /** Paging parameters; the count is taken to be non-negative. */
  datatype Paging = Paging(count: nat, skip: int)

  datatype CombinedModel = CombinedModel(
    criteria: seq<string>,
    negativeCriteria: seq<string>,
    mode: Option<string>,
    extraPrompt: string)

  /** `SearchBasisParams`: the OCR basis is refused with 400 when OCR search is off. */
  function CheckBasis(cfg: Config, basis: Basis): (r: Result<Basis, HttpError>)
    ensures r.Failure? <==> basis == Ocr && !cfg.ocrEnabled
    ensures r.Failure? ==> r.error.status == 400
    ensures r.Success? ==> r.value == basis
  {
    if basis == Ocr && !cfg.ocrEnabled then Failure(HttpError(400, OcrSearchDisabled))
    else Success(basis)
  }

  /** The encoder a query text goes through for a basis: CLIP text for vision, BERT for OCR. */
  function QueryEncoder(enc: Encoders, basis: Basis): string -> Vector {
    match basis
    case Vision => enc.clipText
    case Ocr => enc.bert
  }

  function OtherBasis(basis: Basis): Basis {
    match basis
    case Vision => Ocr
    case Ocr => Vision
  }

  // ---------------------------------------------------------------------------
  // Text search.

  /** The `query_search` call `textSearch` issues, or the 400 of the basis check. */
  function TextSearchCall(cfg: Config, enc: Encoders, prompt: string, basis: Basis, filter: FilterParams,
                          paging: Paging, exact: bool): (r: Result<QueryCall, HttpError>)
    ensures r.Failure? <==> basis == Ocr && !cfg.ocrEnabled
    ensures r.Success? ==>
      && r.value.vector == QueryEncoder(enc, basis)(prompt)
      && r.value.vectorName == VectorNameForBasis(basis)
      && r.value.topK == paging.count && r.value.skip == paging.skip
      && r.value.filter.Some?
      && (basis == Ocr && exact ==> r.value.filter.value.ocrText == Some(prompt))
      && (!(basis == Ocr && exact) ==> r.value.filter.value.ocrText == filter.ocrText)
      && r.value.filter.value.(ocrText := filter.ocrText) == filter
  {
    match CheckBasis(cfg, basis)
    case Failure(e) => Failure(e)
    case Success(b) =>
      var vector := if b == Vision then enc.clipText(prompt) else enc.bert(prompt);
      var f := if b == Ocr && exact then filter.(ocrText := Some(prompt)) else filter;
      Success(QueryCall(vector, VectorNameForBasis(b), paging.count, paging.skip, Some(f)))
  }

  /** Under the vision basis the `exact` flag changes nothing. */
  lemma ExactIgnoredForVision(cfg: Config, enc: Encoders, prompt: string, filter: FilterParams, paging: Paging)
    ensures TextSearchCall(cfg, enc, prompt, Vision, filter, paging, true)
         == TextSearchCall(cfg, enc, prompt, Vision, filter, paging, false)
  {
  }

  // ---------------------------------------------------------------------------
  // Composition queries.

  /** `_query_top_k`: combined search fetches a wider window than requested. */
  function QueryTopK(count: int, combined: bool): (k: int)
    ensures combined ==> 30 <= k <= 100
    ensures combined && count <= 100 ==> k >= count
    ensures combined && 10 <= count <= 33 ==> k == 3 * count
    ensures combined && count <= 10 ==> k == 30
    ensures combined && count >= 34 ==> k == 100
    ensures !combined ==> k == count
  {
    if combined then Min(Max(30, count * 3), 100) else count
  }

  function EncodeAll(encode: string -> Vector, texts: seq<string>): (r: seq<Vector>)
    ensures |r| == |texts|
    ensures forall i :: 0 <= i < |texts| ==> r[i] == encode(texts[i])
  {
    seq(|texts|, i requires 0 <= i < |texts| => encode(texts[i]))
  }

  /** The `query_similar` call of `process_advanced_and_combined_search_query`,
      with the encoders passed in. */
  function PlanCompositionQuery(enc: Encoders, criteria: seq<string>, negativeCriteria: seq<string>,
                                mode: Option<string>, basis: Basis, filter: FilterParams, paging: Paging,
                                combined: bool): (c: SimilarCall)
    ensures c.positives.Some? && |c.positives.value| == |criteria|
    ensures forall i :: 0 <= i < |criteria| ==> c.positives.value[i] == QueryEncoder(enc, basis)(criteria[i])
    ensures c.negatives.Some? && |c.negatives.value| == |negativeCriteria|
    ensures forall i :: 0 <= i < |negativeCriteria| ==>
      c.negatives.value[i] == QueryEncoder(enc, basis)(negativeCriteria[i])
    ensures c.vectorName == VectorNameForBasis(basis) && c.searchId.None?
    ensures c.withVectors == combined && c.topK == QueryTopK(paging.count, combined) && c.skip == paging.skip
    ensures c.filter == Some(filter) && c.mode == mode
  {
    var encode := QueryEncoder(enc, basis);
    SimilarCall(VectorNameForBasis(basis), None, Some(EncodeAll(encode, criteria)),
                Some(EncodeAll(encode, negativeCriteria)), mode, combined, Some(filter),
                QueryTopK(paging.count, combined), paging.skip)
  }

  /** Against the local backend a composition query is a single-vector query on
      the first criterion; without criteria it finds nothing. */
  lemma LocalCompositionUsesFirstCriterion(cfg: Config, db: QueryCall -> seq<SearchResult>, enc: Encoders,
                                          criteria: seq<string>, negativeCriteria: seq<string>,
                                          mode: Option<string>, basis: Basis, filter: FilterParams,
                                          paging: Paging, combined: bool)
    requires cfg.localSearchEnabled
    ensures var c := PlanCompositionQuery(enc, criteria, negativeCriteria, mode, basis, filter, paging, combined);
      LocalBackend(cfg, db).querySimilar(c) ==
        if |criteria| == 0 then []
        else db(QueryCall(QueryEncoder(enc, basis)(criteria[0]), VectorNameForBasis(basis),
                          QueryTopK(paging.count, combined), paging.skip, Some(filter)))
  {
  }

  // ---------------------------------------------------------------------------
  // Cross-modal re-scoring.

  /** The item's vector in the space named by `name`. */
  function ItemVector(img: MappedImage, name: string): Option<Vector> {
    if name == ImageVectorName then img.imageVector
    else if name == TextVectorName then img.textContainVector
    else None
  }

  /** The extra prompt is encoded for the other modality than the basis. */
  function ExtraPromptVector(enc: Encoders, basis: Basis, prompt: string): Vector {
    match basis
    case Ocr => enc.clipText(prompt)
    case Vision => enc.bert(prompt)
  }

  /** The item vector the extra prompt is compared with. */
  function OtherModalityVector(basis: Basis, img: MappedImage): Option<Vector> {
    match basis
    case Ocr => img.imageVector
    case Vision => img.textContainVector
  }

  /** Re-scoring compares, in the space of the other basis, the item's stored
      vector with the prompt encoded as a query of that basis: OCR pairs
      `image_vector` with a CLIP text vector, vision pairs
      `text_contain_vector` with a BERT vector. */
  lemma ModalityPairing(enc: Encoders, basis: Basis, prompt: string, img: MappedImage)
    ensures OtherModalityVector(basis, img) == ItemVector(img, VectorNameForBasis(OtherBasis(basis)))
    ensures ExtraPromptVector(enc, basis, prompt) == QueryEncoder(enc, OtherBasis(basis))(prompt)
    ensures basis == Ocr ==>
      OtherModalityVector(basis, img) == img.imageVector && ExtraPromptVector(enc, basis, prompt) == enc.clipText(prompt)
    ensures basis == Vision ==>
      OtherModalityVector(basis, img) == img.textContainVector && ExtraPromptVector(enc, basis, prompt) == enc.bert(prompt)
  {
  }

  function RescoreOne(enc: Encoders, basis: Basis, extra: Vector, res: SearchResult): SearchResult {
    match OtherModalityVector(basis, res.img)
    case None => res
    case Some(v) => res.(score := (1.0 + enc.cosine(v, extra)) * res.score)
  }

  /** The score update loop of `calculate_and_sort_by_combined_scores`. */
  function Rescore(enc: Encoders, basis: Basis, extra: Vector, results: seq<SearchResult>): (r: seq<SearchResult>)
    ensures |r| == |results|
    ensures forall i :: 0 <= i < |r| ==> r[i].img == results[i].img
    ensures forall i :: 0 <= i < |r| ==>
      match OtherModalityVector(basis, results[i].img)
      case None => r[i].score == results[i].score
      case Some(v) => r[i].score == (1.0 + enc.cosine(v, extra)) * results[i].score
  {
    seq(|results|, i requires 0 <= i < |results| => RescoreOne(enc, basis, extra, results[i]))
  }

  /** With cosines in [-1, 1], a non-negative score ends up between 0 and twice itself. */
  lemma RescoreBounds(enc: Encoders, basis: Basis, extra: Vector, results: seq<SearchResult>, i: int)
    requires forall u, v :: -1.0 <= enc.cosine(u, v) <= 1.0
    requires 0 <= i < |results| && results[i].score >= 0.0
    ensures 0.0 <= Rescore(enc, basis, extra, results)[i].score <= 2.0 * results[i].score
  {
    var r := Rescore(enc, basis, extra, results);
    match OtherModalityVector(basis, results[i].img)
    case None =>
    case Some(v) =>
      var c := enc.cosine(v, extra);
      var a, b := 1.0 + c, results[i].score;
      assert r[i].score == a * b;
      MulNonNegative(a, b);
      MulNonNegative(2.0 - a, b);
      assert 2.0 * b - a * b == (2.0 - a) * b;
  }

  lemma MulNonNegative(x: real, y: real)
    requires x >= 0.0 && y >= 0.0
    ensures x * y >= 0.0
  {
  }

  /** Of two results with the same non-negative base score that both carry the
      other-modality vector, the one closer to the extra prompt scores no lower. */
  lemma RescoreMonotone(enc: Encoders, basis: Basis, extra: Vector, results: seq<SearchResult>, i: int, j: int)
    requires 0 <= i < |results| && 0 <= j < |results|
    requires results[i].score == results[j].score >= 0.0
    requires OtherModalityVector(basis, results[i].img).Some? && OtherModalityVector(basis, results[j].img).Some?
    requires enc.cosine(OtherModalityVector(basis, results[i].img).value, extra)
          >= enc.cosine(OtherModalityVector(basis, results[j].img).value, extra)
    ensures Rescore(enc, basis, extra, results)[i].score >= Rescore(enc, basis, extra, results)[j].score
  {
    var r := Rescore(enc, basis, extra, results);
    var ci := enc.cosine(OtherModalityVector(basis, results[i].img).value, extra);
    var cj := enc.cosine(OtherModalityVector(basis, results[j].img).value, extra);
    var s := results[i].score;
    assert r[i].score == (1.0 + ci) * s;
    assert r[j].score == (1.0 + cj) * s;
    assert (1.0 + ci) * s - (1.0 + cj) * s == (ci - cj) * s;
  }

  /** Base score 0.8 and cosine 0.5 give the re-ranked score 1.2. */
  lemma RescoreExample(enc: Encoders, extra: Vector, res: SearchResult, v: Vector)
    requires res.score == 0.8 && res.img.textContainVector == Some(v) && enc.cosine(v, extra) == 0.5
    ensures Rescore(enc, Vision, extra, [res])[0].score == 1.2
  {
  }

  /** `result[:count] if len(result) > count else result`. */
  function Truncate(s: seq<SearchResult>, count: nat): (r: seq<SearchResult>)
    ensures |r| == Min(|s|, count)
    ensures r == s[..|r|]
  {
    if |s| > count then s[..count] else s
  }

  /** Re-score, stable re-sort, then truncation to the requested count. */
  function CombinedRank(enc: Encoders, basis: Basis, extraPrompt: string, fetched: seq<SearchResult>,
                        count: nat): (r: seq<SearchResult>)
    ensures |r| == Min(|fetched|, count)
    ensures SortedDesc(r)
    ensures var ranked := SortByScoreDesc(Rescore(enc, basis, ExtraPromptVector(enc, basis, extraPrompt), fetched));
      && r == ranked[..|r|]
      && multiset(ranked) == multiset(Rescore(enc, basis, ExtraPromptVector(enc, basis, extraPrompt), fetched))
      && forall k :: WithScore(ranked, k)
                     == WithScore(Rescore(enc, basis, ExtraPromptVector(enc, basis, extraPrompt), fetched), k)
  {
    var rescored := Rescore(enc, basis, ExtraPromptVector(enc, basis, extraPrompt), fetched);
    var ranked := SortByScoreDesc(rescored);
    forall k ensures WithScore(ranked, k) == WithScore(rescored, k) {
      SortIsStable(rescored, k);
    }
    Truncate(ranked, count)
  }

  // ---------------------------------------------------------------------------
  // Post-processing for remote storage.

  /** The extension of a remote object: the item's format when non-empty,
      otherwise what follows the last dot of its url. */
  function RemoteExtension(img: MappedImage): string {
    if img.format.Some? && img.format.value != "" then img.format.value else LastSegment(img.url, '.')
  }

  /** The object name of a remote image: `{id}.{extension}`. */
  function RemoteFilename(img: MappedImage): string
  {
    img.id + "." + RemoteExtension(img)
  }

  /** Without a format the extension is the url's final dot-free segment. */
  lemma RemoteExtensionFromUrl(img: MappedImage)
    requires img.format.None? || img.format.value == ""
    ensures '.' !in RemoteExtension(img)
    ensures EndsWith(img.url, RemoteExtension(img))
    ensures '.' in img.url ==> img.url[|img.url| - |RemoteExtension(img)| - 1] == '.'
  {
  }

  function PostprocessOne(presign: string -> string, img: MappedImage): MappedImage {
    var img1 := if !img.local then img.(url := presign(RemoteFilename(img))) else img;
    if img1.thumbnailUrl.Some? && !img1.local && img1.localThumbnail
    then img1.(thumbnailUrl := Some(presign("thumbnails/" + img1.id + ".webp")))
    else img1
  }

  /** `result_postprocessing`: with storage on, remote items get presigned urls. */
  function Postprocess(cfg: Config, presign: string -> string, results: seq<SearchResult>): (r: seq<SearchResult>)
    ensures !cfg.storageEnabled ==> r == results
    ensures |r| == |results|
    ensures forall i :: 0 <= i < |r| ==>
      && r[i].score == results[i].score
      && r[i].img == results[i].img.(url := r[i].img.url, thumbnailUrl := r[i].img.thumbnailUrl)
    ensures forall i :: 0 <= i < |r| && results[i].img.local ==> r[i] == results[i]
    ensures cfg.storageEnabled ==> forall i :: 0 <= i < |r| && !results[i].img.local ==>
      r[i].img.url == presign(RemoteFilename(results[i].img))
  {
    if !cfg.storageEnabled then results
    else seq(|results|, i requires 0 <= i < |results| =>
               results[i].(img := PostprocessOne(presign, results[i].img)))
  }

  /** Post-processing keeps the ranking order. */
  lemma PostprocessKeepsOrder(cfg: Config, presign: string -> string, results: seq<SearchResult>)
    requires SortedDesc(results)
    ensures SortedDesc(Postprocess(cfg, presign, results))
  {
    var r := Postprocess(cfg, presign, results);
    assert forall i :: 0 <= i < |r| ==> r[i].score == results[i].score;
  }

  // ---------------------------------------------------------------------------
  // The endpoints.

  /** `textSearch`. */
  function TextSearch(cfg: Config, enc: Encoders, backend: SearchBackend, presign: string -> string,
                      prompt: string, basis: Basis, filter: FilterParams, paging: Paging,
                      exact: bool): (r: Result<seq<SearchResult>, HttpError>)
    ensures r.Failure? <==> basis == Ocr && !cfg.ocrEnabled
    ensures r.Success? ==>
      r.value == Postprocess(cfg, presign, backend.querySearch(
        TextSearchCall(cfg, enc, prompt, basis, filter, paging, exact).value))
  {
    match TextSearchCall(cfg, enc, prompt, basis, filter, paging, exact)
    case Failure(e) => Failure(e)
    case Success(call) => Success(Postprocess(cfg, presign, backend.querySearch(call)))
  }

  /** `combinedSearch` with the encoders passed in. */
  function CombinedSearch(cfg: Config, enc: Encoders, backend: SearchBackend, presign: string -> string,
                          model: CombinedModel, basis: Basis, filter: FilterParams,
                          paging: Paging): (r: Result<seq<SearchResult>, HttpError>)
    ensures r.Failure? <==> !cfg.ocrEnabled
    ensures r.Failure? ==> r.error.status == 400
    ensures r.Success? ==> |r.value| <= paging.count && SortedDesc(r.value)
    ensures r.Success? ==>
      r.value == Postprocess(cfg, presign, CombinedRank(enc, basis, model.extraPrompt,
        backend.querySimilar(PlanCompositionQuery(enc, model.criteria, model.negativeCriteria, model.mode,
                                                  basis, filter, paging, true)), paging.count))
  {
    if basis == Ocr && !cfg.ocrEnabled then Failure(HttpError(400, OcrSearchDisabled))
    else if !cfg.ocrEnabled then
      Failure(HttpError(400, CombinedNeedsOcr))
    else
      var call := PlanCompositionQuery(enc, model.criteria, model.negativeCriteria, model.mode, basis,
                                       filter, paging, true);
      var ranked := CombinedRank(enc, basis, model.extraPrompt, backend.querySimilar(call), paging.count);
      PostprocessKeepsOrder(cfg, presign, ranked);
      Success(Postprocess(cfg, presign, ranked))
  }

  // ---------------------------------------------------------------------------
  // The composition path as written: the helper functions reach the encoders
  // and the search backend through a global name `services`, looked up in the
  // controller module's globals when the line runs.

  const ServicesName := "services"

  /** What a module-level name is bound to: a service provider, with the
      encoders and the search backend it exposes, or any other object. */
  datatype Binding = Provider(enc: Encoders, backend: SearchBackend) | OtherObject

  datatype SearchFailure = Http(e: HttpError) | UnboundName(name: string) | NoAttribute

  /** Evaluating `services.<service>`: a `NameError` when the name is not
      bound, an `AttributeError` when it is bound to something that is not a
      service provider. */
  function LookupServices(globals: map<string, Binding>): (r: Result<Binding, SearchFailure>)
    ensures r.Success? <==> ServicesName in globals && globals[ServicesName].Provider?
    ensures ServicesName !in globals ==> r == Failure(UnboundName(ServicesName))
    ensures r.Success? ==> r.value == globals[ServicesName]
  {
    if ServicesName !in globals then Failure(UnboundName(ServicesName))
    else if globals[ServicesName].OtherObject? then Failure(NoAttribute)
    else Success(globals[ServicesName])
  }

  /** The names the controller module binds at module level: its imports and
      its top-level definitions. */
  const SearchModuleNames: set<string> := {
    "BytesIO", "Annotated", "List", "uuid4", "UUID", "Image", "APIRouter", "HTTPException",
    "File", "Query", "Path", "Depends", "logger", "AdvancedSearchModel", "CombinedSearchModel",
    "SearchBasisEnum", "SearchApiResponse", "SearchPagingParams", "FilterParams", "SearchResult",
    "force_access_token_verify", "ServiceProvider", "config", "calculate_vectors_cosine",
    "search_router", "get_services", "SearchBasisParams", "result_postprocessing", "textSearch",
    "imageSearch", "similarWith", "advancedSearch", "combinedSearch", "randomPick",
    "process_advanced_and_combined_search_query", "calculate_and_sort_by_combined_scores"}

  /** The controller module's globals: none of its names is a service provider. */
  function SearchModuleGlobals(): map<string, Binding> {
    map n | n in SearchModuleNames :: OtherObject
  }

  /** `services` is not among the names the controller module binds. */
  lemma ServicesUnboundInSearchModule()
    ensures ServicesName !in SearchModuleGlobals()
  {
    assert ServicesName !in SearchModuleNames;
  }

  /** `process_advanced_and_combined_search_query` as written: the encoders and
      the backend are those `services` names in the module's globals. */
  function ProcessQueryAsWritten(globals: map<string, Binding>, model: CombinedModel, basis: Basis,
                                 filter: FilterParams, paging: Paging, combined: bool): (r: Result<seq<SearchResult>, SearchFailure>)
    ensures ServicesName !in globals ==> r == Failure(UnboundName(ServicesName))
    ensures r.Success? <==> ServicesName in globals && globals[ServicesName].Provider?
    ensures r.Success? ==>
      var p := globals[ServicesName];
      r.value == p.backend.querySimilar(PlanCompositionQuery(p.enc, model.criteria, model.negativeCriteria,
                                                             model.mode, basis, filter, paging, combined))
  {
    match LookupServices(globals)
    case Failure(e) => Failure(e)
    case Success(p) =>
      Success(p.backend.querySimilar(PlanCompositionQuery(p.enc, model.criteria, model.negativeCriteria,
                                                          model.mode, basis, filter, paging, combined)))
  }

  /** `combinedSearch` as written, evaluated against the given module globals;
      the re-scoring helper looks `services` up again for the extra prompt. */
  function CombinedSearchAsWritten(cfg: Config, globals: map<string, Binding>, presign: string -> string,
                                   model: CombinedModel, basis: Basis, filter: FilterParams,
                                   paging: Paging): (r: Result<seq<SearchResult>, SearchFailure>)
    ensures !cfg.ocrEnabled ==> r.Failure? && r.error.Http? && r.error.e.status == 400
    ensures cfg.ocrEnabled && ServicesName !in globals ==> r == Failure(UnboundName(ServicesName))
  {
    if basis == Ocr && !cfg.ocrEnabled then Failure(Http(HttpError(400, OcrSearchDisabled)))
    else if !cfg.ocrEnabled then
      Failure(Http(HttpError(400, CombinedNeedsOcr)))
    else match ProcessQueryAsWritten(globals, model, basis, filter, paging, true)
      case Failure(e) => Failure(e)
      case Success(fetched) =>
        match LookupServices(globals)
        case Failure(e) => Failure(e)
        case Success(p) => Success(Postprocess(cfg, presign, CombinedRank(p.enc, basis, model.extraPrompt,
                                                                          fetched, paging.count)))
  }

  /** With `services` bound to a provider, the code as written computes what
      the corrected combined search computes with that provider's encoders and
      backend, failures included. */
  lemma BoundServicesMatchCorrected(cfg: Config, globals: map<string, Binding>, enc: Encoders,
                                    backend: SearchBackend, presign: string -> string, model: CombinedModel,
                                    basis: Basis, filter: FilterParams, paging: Paging)
    requires ServicesName in globals && globals[ServicesName] == Provider(enc, backend)
    ensures var fixed := CombinedSearch(cfg, enc, backend, presign, model, basis, filter, paging);
      CombinedSearchAsWritten(cfg, globals, presign, model, basis, filter, paging)
        == if fixed.Success? then Success(fixed.value) else Failure(Http(fixed.error))
  {
  }

  /** Against the controller module's own globals, combined search as written
      fails on the unbound name whenever OCR search is enabled, while the
      version with the encoders passed in succeeds. */
  lemma CombinedSearchAsWrittenAlwaysFails(cfg: Config, enc: Encoders, backend: SearchBackend,
                                           presign: string -> string, model: CombinedModel, basis: Basis,
                                           filter: FilterParams, paging: Paging)
    requires cfg.ocrEnabled
    ensures CombinedSearchAsWritten(cfg, SearchModuleGlobals(), presign, model, basis, filter, paging)
         == Failure(UnboundName(ServicesName))
    ensures CombinedSearch(cfg, enc, backend, presign, model, basis, filter, paging).Success?
  {
    ServicesUnboundInSearchModule();
  }
}

=== FILE: tagger.dfy ===
/** The WD14 tagger service: model loading and the confidence-threshold filter. */
module Tagger {
  import opened Common
  import opened Domain

  /** One `(tag, probability)` entry of the interrogator's confidence mapping, in its order. */
  type TagScore = (string, real)

  /** The interrogator; `None` stands for an exception raised while
      converting or interrogating the image. */
  datatype Interrogator = Interrogator(interrogate: Image -> Option<seq<TagScore>>)

  datatype TaggerService = TaggerService(tagger: Option<Interrogator>, modelLoaded: bool)

  /** The service as the constructor leaves it: `load_model` on a fresh
      instance. `construct` is the interrogator's constructor, `None` when it raises. */
  function LoadModel(cfg: Config, construct: Option<Interrogator>): (s: TaggerService)
    ensures s.modelLoaded <==> cfg.taggerEnabled && construct.Some?
    ensures s.tagger.Some? <==> s.modelLoaded
  {
    if !cfg.taggerEnabled then TaggerService(None, false)
    else match construct
      case Some(t) => TaggerService(Some(t), true)
      case None => TaggerService(None, false)
  }

  /** The names of the entries whose probability is strictly above the threshold, in order. */
  function TagsAbove(scores: seq<TagScore>, threshold: real): (r: seq<string>)
    ensures |r| <= |scores|
    ensures forall t :: t in r <==> exists i :: 0 <= i < |scores| && scores[i].0 == t && scores[i].1 > threshold
  {
    if |scores| == 0 then []
    else
      var rest := TagsAbove(scores[1..], threshold);
      assert forall i :: 0 < i < |scores| ==> scores[i] == scores[1..][i - 1];
      if scores[0].1 > threshold then [scores[0].0] + rest else rest
  }

  /** `a` is `b` with some elements removed, order kept. */
  predicate IsSubsequence<T(==)>(a: seq<T>, b: seq<T>)
    decreases |b|
  {
    if |a| == 0 then true
    else if |b| == 0 then false
    else (a[0] == b[0] && IsSubsequence(a[1..], b[1..])) || IsSubsequence(a, b[1..])
  }

  function Names(scores: seq<TagScore>): (r: seq<string>)
    ensures |r| == |scores|
    ensures forall i :: 0 <= i < |scores| ==> r[i] == scores[i].0
  {
    seq(|scores|, i requires 0 <= i < |scores| => scores[i].0)
  }

  /** The kept tags are an order-preserving subsequence of the interrogator's tags. */
  lemma {:induction false} TagsAboveIsSubsequence(scores: seq<TagScore>, threshold: real)
    ensures IsSubsequence(TagsAbove(scores, threshold), Names(scores))
  {
    if |scores| > 0 {
      TagsAboveIsSubsequence(scores[1..], threshold);
      assert Names(scores)[1..] == Names(scores[1..]);
      var rest := TagsAbove(scores[1..], threshold);
      if scores[0].1 > threshold {
        assert ([scores[0].0] + rest)[1..] == rest;
      } else if |rest| > 0 {
        assert IsSubsequence(rest, Names(scores)[1..]);
      }
    }
  }

  /** `generate_tags`. */
  function GenerateTags(s: TaggerService, cfg: Config, image: Image): (tags: seq<string>)
    ensures !s.modelLoaded || s.tagger.None? ==> tags == []
    ensures s.modelLoaded && s.tagger.Some? && s.tagger.value.interrogate(ToRgb(image)).None? ==> tags == []
    ensures s.modelLoaded && s.tagger.Some? && s.tagger.value.interrogate(ToRgb(image)).Some? ==>
      var scores := s.tagger.value.interrogate(ToRgb(image)).value;
      && IsSubsequence(tags, Names(scores))
      && forall t :: t in tags <==>
           exists i :: 0 <= i < |scores| && scores[i].0 == t && scores[i].1 > cfg.taggerThreshold
  {
    if !s.modelLoaded || s.tagger.None? then []
    else match s.tagger.value.interrogate(ToRgb(image))
      case None => []
      case Some(scores) =>
        TagsAboveIsSubsequence(scores, cfg.taggerThreshold);
        TagsAbove(scores, cfg.taggerThreshold)
  }

  /** A tagger that is disabled in the configuration, or whose model fails to
      load, answers every later request with no tags. */
  lemma UnloadedTaggerYieldsNoTags(cfg: Config, construct: Option<Interrogator>, image: Image)
    requires !cfg.taggerEnabled || construct.None?
    ensures GenerateTags(LoadModel(cfg, construct), cfg, image) == []
  {
  }
}

=== FILE: text.dfy ===
/** String helpers with the meaning of the Python built-ins the core relies on:
    `str.lower`, `str.endswith`, the `in` substring test and `str.split(sep)[-1]`. */
module Text {

  /** Lower-casing of one character; only the ASCII letters are mapped. */
  function LowerChar(c: char): char {
    if 'A' <= c <= 'Z' then (c as int - 'A' as int + 'a' as int) as char else c
  }

  function Lower(s: string): (r: string)
    ensures |r| == |s|
    ensures forall i :: 0 <= i < |s| ==> r[i] == LowerChar(s[i])
  {
    seq(|s|, i requires 0 <= i < |s| => LowerChar(s[i]))
  }

  predicate EndsWith(s: string, suffix: string) {
    |suffix| <= |s| && s[|s| - |suffix|..] == suffix
  }

  /** Python's `needle in hay` on strings: the empty needle is in every string. */
  predicate Contains(hay: string, needle: string) {
    exists i | 0 <= i <= |hay| :: MatchesAt(hay, needle, i)
  }

  predicate MatchesAt(hay: string, needle: string, i: int) {
    0 <= i <= |hay| - |needle| && hay[i..i + |needle|] == needle
  }

  /** Python's `s.split(sep)[-1]`: what follows the last `sep`, or `s` itself
      when `sep` does not occur. */
  function LastSegment(s: string, sep: char): (r: string)
    ensures sep !in r
    ensures EndsWith(s, r)
    ensures sep in s ==> |r| < |s| && s[|s| - |r| - 1] == sep
    ensures sep !in s ==> r == s
    decreases |s|
  {
    if |s| == 0 then ""
    else if s[|s| - 1] == sep then ""
    else LastSegment(s[..|s| - 1], sep) + [s[|s| - 1]]
  }

}
